=== FILE: README.md ===
# Shuttle Christmas Code Hunt 2024 solutions: the pure core, in Dafny

This project models the request-handling logic of four days of the
`shuttlings-cch24` web service:

- **Day 2:** IPv4 "destination" and "key" arithmetic. The octets are added or
  subtracted with u8 wrap-around and the result is rendered in dotted decimal.
- **Day 23:** the htmx snippets. `escape_string` is a chain of six replacements.
  `present` cycles through three colours and `ornament` toggles between two
  states. `div_from_checksum` turns a lockfile checksum into a coloured,
  positioned `<div>`, and `lockfile` folds it over the packages.
- **Day 12:** the milk-and-cookies board. `Board::new` builds the fresh 5×6
  board, the two `Display` implementations render it, and the `reset_board`
  and `board` handlers answer with that rendering.
- **Day 5:** the manifest handler after parsing. It checks, in order, the
  content type, the parse result, the magic keyword "Christmas 2024", and the
  order filtering and formatting that lead to 200, 204, 400 or 415.

Each handler is a pure function from its inputs to a `Response(status, body)`,
or to an `Outcome` for `div_from_checksum` and `lockfile`. Strings are
sequences of Unicode scalar values. Rust's byte-indexed string slicing is
modelled through each character's UTF-8 width. A non-ASCII character within
the first ten bytes of a checksum gives 422 or the panic Rust would raise, and
characters after the tenth byte are ignored.

`src/day_12.rs` in this revision only builds and shows a fresh board: no
placement, gravity or win detection exists, and the model has none either.

Files:
- `wrappers.dfy`: `Option`, `Response` and the status codes.
- `text.dfy`: decimal and hex digits, join, split, count and trim.
- `ipv4.dfy`: day 2.
- `html.dfy`: `escape_string`.
- `snippets.dfy`: `present` and `ornament`.
- `checksum.dfy`: `div_from_checksum` and `lockfile`.
- `board.dfy`: day 12.
- `manifest.dfy`: day 5.

## Model

| member | source | states |
|---|---|---|
| Ipv4.WrappingAdd | src/day_2.rs:23 | `u8::wrapping_add` is the true sum of two octets, less 256 exactly when the sum exceeds 255 |
| Ipv4.WrappingSub | src/day_2.rs:34 | `u8::wrapping_sub` is the true difference, plus 256 exactly when it would be negative |
| Ipv4.Dest | src/day_2.rs:17-26 | the answer has exactly four dot-separated components, and component i is the decimal form of (from_i + key_i) mod 256, each position independent of the others |
| Ipv4.Key | src/day_2.rs:28-37 | the answer has exactly four dot-separated components, and component i is the decimal form of (to_i − from_i) mod 256 |
| Ipv4.RenderShape | src/day_2.rs:23-25 | a rendered address is four components with exactly three dots; each is one to three digits and denotes its octet, a value in [0, 255] |
| Ipv4.ParseRender | src/day_2.rs:23-25 | reading a rendered address back gives its octets, so the rendering loses nothing |
| Ipv4.RenderInjective | src/day_2.rs:23-25 | two addresses render alike only if they are equal |
| Ipv4.DestOfKey | src/day_2.rs:17-37 | adding the key computed from `from` to `to` back onto `from` gives `to` |
| Ipv4.KeyOfDest | src/day_2.rs:17-37 | the key computed from `from` and `from + key` is `key` |
| Ipv4.DestOfKeyText | src/day_2.rs:17-37 | the same round trip through the rendered text: the key's text reads back as an address, and `dest` with it renders `to` |
| Ipv4.ZeroKey | src/day_2.rs:17-37 | the key 0.0.0.0 leaves an address unchanged, and the key from an address to itself is 0.0.0.0 |
| Html.EscapeChar | src/day_23.rs:18-25 | each character's escape holds no unsafe character, and only the six special characters change |
| Html.Escape | src/day_23.rs:18-25 | the per-character escape has no raw `<`, `>`, `"`, `'` or `/`; it is the identity on strings without the six special characters, and never shorter than its input |
| Html.ReplaceChainChar | src/day_23.rs:18-25 | on one character the six replacements give that character's table entry, because no later replacement touches what an earlier one wrote |
| Html.ReplaceChainIsEscape | src/day_23.rs:18-25 | the chain of six `replace` calls, `&` first, equals the per-character escape on every string |
| Html.EscapeString | src/day_23.rs:18-25 | `escape_string`, computed by the replace chain, equals the per-character escape |
| Html.UnescapeEscape | src/day_23.rs:18-25 | reading the six entities back undoes the escape, so it loses nothing |
| Html.EscapeInjective | src/day_23.rs:18-25 | two segments escape alike only if they are equal |
| Snippets.EscapedEquals | src/day_23.rs:32-39 | an escaped segment equals a word without special characters exactly when the raw segment is that word, so the colour match sees the raw colour |
| Snippets.Present | src/day_23.rs:31-46 | an unknown colour answers 418 with an empty body; a known colour answers 200 with the snippet for that colour that links to the next colour |
| Snippets.PresentCycle | src/day_23.rs:34-39 | following the link three times returns to the start colour, and no link points back at its own colour |
| Snippets.PresentLink | src/day_23.rs:41-45 | cut at its double quotes, the snippet has fifteen pieces; the class is "present " plus the colour, and the `hx-get` path ends in the next colour |
| Snippets.Ornament | src/day_23.rs:48-63 | an unknown state answers 418 with an empty body; "on" gives class " on" and "off" gives no extra class, the id and the link carry the escaped number, and the link asks for the other state |
| Snippets.ToggleTwice | src/day_23.rs:51-55 | switching twice returns to the first state, and a switch always changes it |
| Snippets.OrnamentAttributes | src/day_23.rs:49-60 | the number cannot break out of its attributes: the snippet still has exactly eleven quote-separated pieces, the id is "ornament" plus the escaped number, and the path has exactly the five segments "", "23", "ornament", the next state and the escaped number |
| Checksum.ByteLenAscii | src/day_23.rs:99 | an ASCII checksum is one byte per character, so the length test counts characters |
| Checksum.CharIndexBytes | src/day_23.rs:104-114 | the characters before a byte offset occupy exactly that many UTF-8 bytes |
| Checksum.ByteLenSlice | src/day_23.rs:104-114 | the characters between two byte offsets occupy exactly their difference in bytes |
| Checksum.ParseField | src/day_23.rs:104-109 | `u64::from_str_radix(_, 16)` accepts a non-empty run of hex digits, or one `+` followed by hex digits, and nothing else (at field widths up to 16), and yields the value of the digits after any `+`; the corrected syntax accepts only hex digits and yields their value; any accepted field is ASCII and below 16^width |
| Checksum.FieldAt | src/day_23.rs:104-109 | a field panics when its end offset is inside a character and fails with 422 when it does not parse; otherwise it is the parsed value of the slice |
| Checksum.DivShape | src/day_23.rs:104-117 | on success the checksum starts with ten ASCII characters; the colour is the first six verbatim, leading zeros kept; top and left are the values of characters 6..8 and 8..10, each at most 255 |
| Checksum.DivAscii | src/day_23.rs:99-109 | with ten ASCII characters up front, the only failure is 422, and the checksum fails exactly when one of the three fields does not parse |
| Checksum.DivIgnoresTail | src/day_23.rs:104-117 | for a checksum of ten ASCII characters, anything appended after them never changes the result |
| Checksum.DivFrom | src/day_23.rs:98-118 | in either field syntax, fewer than ten bytes answers 422, a success has at least ten bytes, and the only failures are 422 and a slicing panic |
| Checksum.DivFromChecksumAsWritten | src/day_23.rs:98-118 | `div_from_checksum` as written: fewer than ten bytes answers 422; a success has ten ASCII characters up front and is the `<div>` with the first six verbatim as the colour and the values `from_str_radix` reads from 6..8 and 8..10 as offsets |
| Checksum.DivFromChecksum | src/day_23.rs:98-118 | the corrected reading of the Findings row, not the code as written: fewer than ten bytes answers 422; a success has ten hex digits up front and is the `<div>` with the first six as the colour and the values of 6..8 and 8..10 as offsets |
| Checksum.HexFields | src/day_23.rs:104-109 | the first ten characters are hex digits exactly when each of the three fields is |
| Checksum.DivFromChecksumHex | src/day_23.rs:99-109 | with ten ASCII characters up front, the corrected checksum succeeds exactly when they are all hex digits, and otherwise fails with 422 |
| Checksum.PlusSignColour | src/day_23.rs:103-105 | as written, "+12345ffff" succeeds with the colour "+12345", which is not six hex digits; the corrected checksum refuses it with 422 |
| Checksum.LockfileSpec | src/day_23.rs:65-76 | in either field syntax, a failed lockfile fails with the outcome of some package's checksum |
| Checksum.Lockfile | src/day_23.rs:65-76 | the loop's result equals the recursive fold over the packages; with the `RustRadix` syntax it is the handler as written, with `HexOnly` the corrected one |
| Checksum.LockfileStep | src/day_23.rs:67-73 | one turn of the loop skips a package without a checksum, stops at a failing checksum with its failure, and otherwise appends its `<div>` |
| Checksum.LockfileSucceeds | src/day_23.rs:65-76 | in either field syntax, the lockfile succeeds exactly when every present checksum does; packages without one are skipped, and the body is the `<div>`s concatenated in package order |
| Checksum.LockfileAppend | src/day_23.rs:65-76 | in either field syntax, folding two package lists back to back gives the first list's failure if it fails, and otherwise its body in front of the second list's outcome |
| Checksum.LockfileFirstFailure | src/day_23.rs:68-72 | in either field syntax, the first failing checksum decides the result: its failure is the lockfile's failure, whatever follows |
| Checksum.LockfileSingle | src/day_23.rs:65-76 | a lockfile with one checksum answers exactly what that checksum does |
| Checksum.PlusSignLockfile | src/day_23.rs:65-76 | as written, a lockfile whose one checksum is "+12345ffff" answers the `<div>` coloured "+12345"; the corrected handler answers 422 |
| Board.Glyph | src/day_12.rs:18-28 | each tile displays as a single character that reads back as that tile, and never as a line break |
| Board.GlyphInverse | src/day_12.rs:18-28 | reading a character gives a tile exactly when that tile displays as it, so the display is invertible |
| Board.GlyphInjective | src/day_12.rs:18-28 | the four tiles display as four distinct single glyphs, none of them a line break |
| Board.NewBoard | src/day_12.rs:30-49 | the fresh board has 5 rows of 6 tiles; a tile is a wall exactly in column 0, column 5 or row 4, and empty exactly in rows 0–3, columns 1–4 |
| Board.NewBoardCounts | src/day_12.rs:39-43 | the fresh board holds 16 empty tiles, 14 walls, and no cookie or milk |
| Board.RenderRow | src/day_12.rs:56-61 | a rendered row has one glyph per tile, in order |
| Board.Render | src/day_12.rs:51-67 | the rendering ends with a newline, and a board of n ≥ 1 rows has exactly n newlines, one per row |
| Board.DecodeRender | src/day_12.rs:51-67 | rendering loses nothing: a board with at least one row is read back exactly from its rendering |
| Board.RenderNewBoard | src/day_12.rs:51-67 | the fresh board renders as 35 characters with exactly five newlines, the last one at the very end; cut at the newlines, the text is the five rendered rows |
| Board.ResetBoard | src/day_12.rs:69-71 | `reset_board` answers 200 with a text that reads back as the fresh board |
| Board.ShowBoard | src/day_12.rs:73-76 | `board` answers 200 with a text that reads back as the fresh board |
| Board.ResetMatchesShow | src/day_12.rs:69-76 | both handlers give the same answer |
| Manifest.FormatOf | src/day5.rs:30-46 | a parser is chosen exactly for the three content types, and each selects its own: `application/toml` the TOML parser, `application/yaml` the YAML parser, `application/json` the JSON parser |
| Manifest.HandleManifest | src/day5.rs:28-96 | `manifest` answers 200, 204, 400 or 415; 415 with an empty body exactly for an unsupported or missing Content-Type; 400 only with "Invalid manifest" or "Magic keyword not provided"; 200 and 204 only for a parsed package with the magic keyword |
| Manifest.Quantity | src/day5.rs:16-23 | a quantity survives exactly when it is an integer that fits a u32, and then keeps its value; an absent or invalid one becomes nothing |
| Manifest.UnsupportedMediaType | src/day5.rs:30-45 | any other or missing content type answers 415 with an empty body, whatever the parsers would say |
| Manifest.InvalidManifest | src/day5.rs:47-55 | a parse failure or a missing `package` answers 400 "Invalid manifest" |
| Manifest.MagicKeywordCases | src/day5.rs:59-64 | the keyword check passes exactly for a local keyword list that contains "Christmas 2024"; absent and inherited keywords fail it |
| Manifest.MagicKeywordFirst | src/day5.rs:59-70 | a package without the magic keyword answers 400 "Magic keyword not provided", whatever its orders |
| Manifest.OrderLines | src/day5.rs:76-81 | the `filter_map` gives at most one line per order |
| Manifest.OrderLinesSingle | src/day5.rs:79 | an order gives its "item: quantity" line when its quantity survives, and nothing when it does not |
| Manifest.OrderLinesAppend | src/day5.rs:76-81 | the lines of two order lists back to back are the lines of each, back to back, so surviving orders keep their order |
| Manifest.LineShape | src/day5.rs:79 | every line is some order's item, ": " and its surviving quantity in decimal |
| Manifest.OrdersOutcome | src/day5.rs:72-95 | with a package and the magic keyword, the answer is 200 exactly when metadata is present and some order survives, with the trimmed joined lines as the body; otherwise 204 with an empty body |
| Manifest.OrdersBodyLines | src/day5.rs:73-90 | when no item holds a line break or starts with whitespace, the 200 body cut at its line breaks is exactly the surviving orders' lines, in order |
| Manifest.TwoOrders | src/day5.rs:118-142 | orders "Toy Car" ×5 and "Doll" ×3 answer 200 "Toy Car: 5\nDoll: 3" |
| Manifest.NoOrders | src/day5.rs:233-249 | an empty order list answers 204 with an empty body |
| Manifest.OrdersWithoutQuantity | src/day5.rs:252-272 | orders without quantities answer 204 with an empty body |
| Manifest.WrongKeyword | src/day5.rs:196-212 | the keyword list ["Holiday"] answers 400 "Magic keyword not provided" |

## Left out

- `src/day_9.rs`, `src/day_16.rs`, `src/day_19.rs`, `src/day_minus_1.rs` and `src/main.rs` are not part of this model. They cover floating-point milk conversion with a time-based rate limiter, JWT signing through a library, a database query, constant answers and router wiring.
- The `star` handler on day 23 (`src/day_23.rs:27-29`) answers a constant and is not modelled.
- Parsing is taken as given input. This covers the Ipv4Addr query extraction (`src/day_2.rs:5-15`), the multipart and TOML parsing of the lockfile (`src/day_23.rs:78-96`), and the TOML, YAML and JSON manifest parsers (`src/day5.rs:30-47`). Addresses are four octets. The lockfile is a sequence of optional checksums. The manifest handler receives the chosen parser's result as the function `parse: Format -> Option<Manifest>`, with a failed parse as `None`.
- `Manifest.Quantity`: the document's quantity is reduced to absent, an integer, or anything else. Serde's other `DefaultOnError` failures are folded into "anything else".
- `Ipv4.Parse` is this model's own reader of dotted decimal, used to state that rendering loses nothing. It is not Rust's `Ipv4Addr` parser.
- `Board.DecodeRender` requires at least one row, because the rendering of an empty board and of a board with one empty row are the same text.
- `Checksum.ParseField`: the characterisation of `u64::from_str_radix` is stated for fields of at most 16 characters. The handler only reads fields of widths 6 and 2; longer fields are still computed, with overflow giving `None`.
- A panic from slicing inside a UTF-8 character is the `Panic` failure. The process-level effect of the panic is not modelled.
- Headers, bodies as bytes, and the HTTP framework are not modelled: a content type is an optional string, and a response is a status and a string body.

## Findings

| source | as written | input that shows it | evidently intended | confidence | as-written member | corrected member |
|---|---|---|---|---|---|---|
| src/day_23.rs:103-105 | the colour check uses `u64::from_str_radix(_, 16)`, which accepts one leading `+` | checksum "+12345ffff" yields the `<div>` with `background-color:#+12345` | the colour is six hex digits, as the comment above the check states | high, not executed | Checksum.PlusSignColour | Checksum.DivFromChecksum |

`Checksum.DivFromChecksumAsWritten` keeps the behaviour as written, and `Checksum.DivFromChecksum` reads every field as bare hex digits. `Checksum.Lockfile` takes the field syntax as a parameter: `RustRadix` gives the `lockfile` handler as written, and `HexOnly` the corrected one. `Checksum.PlusSignLockfile` shows the difference at the level of the lockfile.

=== FILE: board.dfy ===
/** Day 12: the cookie-and-milk board. A fresh board is five rows of six
    tiles: walls down the first and last columns and along the bottom row,
    an empty four-by-four interior above it. It is shown as one glyph per
    tile, a line per row, each line ended by a newline. */
module Board {
  import opened Wrappers
  import opened Text

  datatype Tile = Cookie | Empty | Milk | Wall

  type Grid = seq<seq<Tile>>

  const ROWS: nat := 5
  const COLUMNS: nat := 6

  /** The tile a glyph stands for, if any. */
  function TileOfGlyph(c: char): Option<Tile>
  {
    if c == '\U{1F36A}' then Some(Cookie)
    else if c == '\U{1F95B}' then Some(Milk)
    else if c == '\U{2B1B}' then Some(Empty)
    else if c == '\U{2B1C}' then Some(Wall)
    else None
  }

  /** The emoji `Display` writes for each tile: a single character that is
      read back as that tile, so no two tiles share one, and never a line
      break. */
  function Glyph(t: Tile): (c: char)
    ensures TileOfGlyph(c) == Some(t)
    ensures c != '\n'
  {
    match t
    case Cookie => '\U{1F36A}'
    case Milk => '\U{1F95B}'
    case Empty => '\U{2B1B}'
    case Wall => '\U{2B1C}'
  }

  /** Reading a glyph is the exact inverse of displaying a tile: a
      character is read as a tile exactly when that tile displays as it. */
  lemma GlyphInverse(c: char, t: Tile)
    ensures TileOfGlyph(c) == Some(t) <==> Glyph(t) == c
  {
  }

  /** Every tile has its own glyph, and no glyph is a line break. */
  lemma GlyphInjective(a: Tile, b: Tile)
    ensures Glyph(a) == Glyph(b) <==> a == b
    ensures TileOfGlyph(Glyph(a)) == Some(a)
    ensures Glyph(a) != '\n'
  {
  }

  /** The tile `Board::new` puts at row `i`, column `j`. */
  function InitialTile(i: nat, j: nat): Tile
  {
    if i <= 3 && (j == 0 || j == 5) then Wall
    else if i == 4 then Wall
    else Empty
  }

  /** `Board::new`: five rows of six tiles; a tile is a wall exactly when it
      is in column 0, column 5 or row 4, and empty otherwise. */
  function NewBoard(): (b: Grid)
    ensures |b| == ROWS
    ensures forall i :: 0 <= i < |b| ==> |b[i]| == COLUMNS
    ensures forall i, j :: 0 <= i < ROWS && 0 <= j < COLUMNS ==>
      (b[i][j] == Wall <==> j == 0 || j == 5 || i == 4)
    ensures forall i, j :: 0 <= i < ROWS && 0 <= j < COLUMNS ==>
      (b[i][j] == Empty <==> i <= 3 && 1 <= j <= 4)
  {
    seq(ROWS, i requires 0 <= i < ROWS => seq(COLUMNS, j requires 0 <= j < COLUMNS => InitialTile(i, j)))
  }

  // ---------------------------------------------------------------------------
  // Counting tiles

  function CountInRow(row: seq<Tile>, t: Tile): nat
  {
    if |row| == 0 then 0 else (if row[0] == t then 1 else 0) + CountInRow(row[1..], t)
  }

  function CountInGrid(b: Grid, t: Tile): nat
  {
    if |b| == 0 then 0 else CountInRow(b[0], t) + CountInGrid(b[1..], t)
  }

  /** A fresh board has sixteen empty tiles, fourteen walls, and no cookie
      or milk. */
  lemma NewBoardCounts()
    ensures CountInGrid(NewBoard(), Empty) == 16
    ensures CountInGrid(NewBoard(), Wall) == 14
    ensures CountInGrid(NewBoard(), Cookie) == 0
    ensures CountInGrid(NewBoard(), Milk) == 0
  {
    NewBoardRows();
    GridCount(Empty);
    GridCount(Wall);
    GridCount(Cookie);
    GridCount(Milk);
    RowCounts();
  }

  /** A fresh board is four inner rows above a bottom row. */
  lemma NewBoardRows()
    ensures NewBoard() == [InnerRow(), InnerRow(), InnerRow(), InnerRow(), BottomRow()]
  {
    var b, e := NewBoard(), [InnerRow(), InnerRow(), InnerRow(), InnerRow(), BottomRow()];
    forall i | 0 <= i < ROWS
      ensures b[i] == e[i]
    {
      forall j | 0 <= j < COLUMNS
        ensures b[i][j] == e[i][j]
      {
      }
    }
  }

  lemma GridCount(t: Tile)
    ensures CountInGrid([InnerRow(), InnerRow(), InnerRow(), InnerRow(), BottomRow()], t)
      == 4 * CountInRow(InnerRow(), t) + CountInRow(BottomRow(), t)
  {
    var b := [InnerRow(), InnerRow(), InnerRow(), InnerRow(), BottomRow()];
    assert b[1..][1..] == b[2..];
    assert b[2..][1..] == b[3..];
    assert b[3..][1..] == b[4..];
    assert b[4..][1..] == [];
  }

  function InnerRow(): seq<Tile> { [Wall, Empty, Empty, Empty, Empty, Wall] }
  function BottomRow(): seq<Tile> { [Wall, Wall, Wall, Wall, Wall, Wall] }

  lemma RowCounts()
    ensures CountInRow(InnerRow(), Empty) == 4 && CountInRow(InnerRow(), Wall) == 2
    ensures CountInRow(InnerRow(), Cookie) == 0 && CountInRow(InnerRow(), Milk) == 0
    ensures CountInRow(BottomRow(), Empty) == 0 && CountInRow(BottomRow(), Wall) == 6
    ensures CountInRow(BottomRow(), Cookie) == 0 && CountInRow(BottomRow(), Milk) == 0
  {
  }

  // ---------------------------------------------------------------------------
  // Rendering

  /** A row's glyphs written side by side. */
  function RenderRow(row: seq<Tile>): (s: string)
    ensures |s| == |row|
    ensures forall k :: 0 <= k < |row| ==> s[k] == Glyph(row[k])
  {
    if |row| == 0 then "" else [Glyph(row[0])] + RenderRow(row[1..])
  }

  function RenderedRows(b: Grid): (lines: seq<string>)
    ensures |lines| == |b|
  {
    seq(|b|, i requires 0 <= i < |b| => RenderRow(b[i]))
  }

  /** `Display for Board`: the rows joined with newlines, then `writeln!`'s
      final newline. The text ends with a newline, and a board of n >= 1
      rows has exactly n of them: one per row, since no glyph is a line
      break. */
  function Render(b: Grid): (s: string)
    ensures |s| >= 1 && s[|s| - 1] == '\n'
    ensures |b| >= 1 ==> Count(s, '\n') == |b|
  {
    var body := Join(RenderedRows(b), '\n');
    if |b| >= 1 then
      RowsHaveNoNewline(b);
      CountJoin(RenderedRows(b), '\n');
      CountAppend(body, "\n", '\n');
      body + "\n"
    else
      body + "\n"
  }

  /** Reads one line of glyphs back into tiles. */
  function DecodeRow(s: string): (r: Option<seq<Tile>>)
    ensures r.Some? ==> |r.value| == |s|
  {
    if |s| == 0 then Some([])
    else
      match (TileOfGlyph(s[0]), DecodeRow(s[1..]))
      case (Some(t), Some(rest)) => Some([t] + rest)
      case _ => None
  }

  function DecodeRows(lines: seq<string>): (r: Option<Grid>)
    ensures r.Some? ==> |r.value| == |lines|
  {
    if |lines| == 0 then Some([])
    else
      match (DecodeRow(lines[0]), DecodeRows(lines[1..]))
      case (Some(row), Some(rest)) => Some([row] + rest)
      case _ => None
  }

  /** Reads a rendered board back: drop the final newline, cut at the
      remaining newlines, decode every glyph. */
  function Decode(s: string): Option<Grid>
  {
    if |s| > 0 && s[|s| - 1] == '\n' then DecodeRows(Split(s[..|s| - 1], '\n'))
    else None
  }

  lemma {:induction false} DecodeRenderRow(row: seq<Tile>)
    ensures DecodeRow(RenderRow(row)) == Some(row)
  {
    if |row| > 0 {
      DecodeRenderRow(row[1..]);
      DecodeRowStep(row[0], RenderRow(row[1..]), row[1..]);
      assert [row[0]] + row[1..] == row;
    }
  }

  lemma DecodeRowStep(t: Tile, s: string, rest: seq<Tile>)
    requires DecodeRow(s) == Some(rest)
    ensures DecodeRow([Glyph(t)] + s) == Some([t] + rest)
  {
    var u := [Glyph(t)] + s;
    assert u[0] == Glyph(t);
    assert u[1..] == s;
  }

  lemma {:induction false} DecodeRenderRows(b: Grid)
    ensures DecodeRows(RenderedRows(b)) == Some(b)
  {
    if |b| > 0 {
      DecodeRenderRow(b[0]);
      DecodeRenderRows(b[1..]);
      assert RenderedRows(b)[1..] == RenderedRows(b[1..]);
      assert [b[0]] + b[1..] == b;
    }
  }

  /** No rendered row contains a line break. */
  lemma RowsHaveNoNewline(b: Grid)
    ensures NoneContains(RenderedRows(b), '\n')
  {
    forall i | 0 <= i < |b|
      ensures '\n' !in RenderedRows(b)[i]
    {
      var s := RenderRow(b[i]);
      forall k | 0 <= k < |s|
        ensures s[k] != '\n'
      {
        GlyphInjective(b[i][k], b[i][k]);
      }
    }
  }

  /** Rendering loses nothing: a board with at least one row is read back
      from its rendering exactly. */
  lemma DecodeRender(b: Grid)
    requires |b| >= 1
    ensures Decode(Render(b)) == Some(b)
  {
    var body := Join(RenderedRows(b), '\n');
    assert Render(b)[..|Render(b)| - 1] == body;
    RowsHaveNoNewline(b);
    SplitJoin(RenderedRows(b), '\n');
    DecodeRenderRows(b);
  }

  /** The rendering of a fresh board: five lines of six glyphs, so exactly
      five newlines, the last one at the very end. */
  lemma RenderNewBoard()
    ensures var s := Render(NewBoard());
      && Count(s, '\n') == 5
      && |s| == 35
      && s[|s| - 1] == '\n'
      && Split(s[..|s| - 1], '\n') == RenderedRows(NewBoard())
  {
    var b := NewBoard();
    var lines := RenderedRows(b);
    var body := Join(lines, '\n');
    RowsHaveNoNewline(b);
    CountJoin(lines, '\n');
    CountAppend(body, "\n", '\n');
    SplitJoin(lines, '\n');
    JoinLength(lines, '\n', 6);
    assert Render(b)[..|Render(b)| - 1] == body;
  }

  // ---------------------------------------------------------------------------
  // Handlers

  /** `reset_board`: 200 with a fresh board's rendering. */
  function ResetBoard(): (r: Response)
    ensures r.status == OK
    ensures Decode(r.body) == Some(NewBoard())
  {
    DecodeRender(NewBoard());
    Response(OK, Render(NewBoard()))
  }

  /** `board`: also 200 with a fresh board's rendering; this revision keeps
      no board between requests. */
  function ShowBoard(): (r: Response)
    ensures r.status == OK
    ensures Decode(r.body) == Some(NewBoard())
  {
    ResetBoard()
  }

  /** Both handlers answer the same. */
  lemma ResetMatchesShow()
    ensures ResetBoard() == ShowBoard()
  {
  }
}

=== FILE: checksum.dfy ===
/** Day 23, lockfile: each package checksum with at least ten bytes becomes
    a positioned, coloured `<div>`. Bytes 0..6 are the colour, bytes 6..8
    the top offset and bytes 8..10 the left offset, each checked with
    `u64::from_str_radix(_, 16)`. Rust slices a `String` by UTF-8 byte
    offset and panics when an offset falls inside a character; the model
    follows the byte offsets through each character's UTF-8 width, so
    non-ASCII checksums need no precondition. */
module Checksum {
  import opened Wrappers
  import opened Text

  // ---------------------------------------------------------------------------
  // UTF-8 byte offsets

  /** Number of bytes UTF-8 spends on `c`. */
  function Utf8Width(c: char): (w: nat)
    ensures 1 <= w <= 4
    ensures w == 1 <==> IsAscii(c)
  {
    if c as int < 0x80 then 1
    else if c as int < 0x800 then 2
    else if c as int < 0x1_0000 then 3
    else 4
  }

  predicate IsAscii(c: char) {
    c as int < 0x80
  }

  predicate AllAscii(s: string) {
    forall i :: 0 <= i < |s| ==> IsAscii(s[i])
  }

  /** `str::len`: the length in UTF-8 bytes. */
  function ByteLen(s: string): (n: nat)
    ensures n >= |s|
  {
    if |s| == 0 then 0 else Utf8Width(s[0]) + ByteLen(s[1..])
  }

  /** An ASCII string has one byte per character. */
  lemma {:induction false} ByteLenAscii(s: string)
    requires AllAscii(s)
    ensures ByteLen(s) == |s|
  {
    if |s| > 0 {
      assert IsAscii(s[0]);
      assert AllAscii(s[1..]) by {
        forall j | 0 <= j < |s[1..]|
          ensures IsAscii(s[1..][j])
        {
          assert s[1..][j] == s[j + 1];
        }
      }
      ByteLenAscii(s[1..]);
    }
  }

  /** `str::is_char_boundary(k)`: byte offset `k` starts a character or is
      the end of the string. */
  predicate IsCharBoundary(s: string, k: nat)
  {
    k == 0 || (|s| > 0 && Utf8Width(s[0]) <= k && IsCharBoundary(s[1..], k - Utf8Width(s[0])))
  }

  /** The number of characters in the first `k` bytes. */
  function CharIndex(s: string, k: nat): (i: nat)
    requires IsCharBoundary(s, k)
    ensures i <= |s|
  {
    if k == 0 then 0 else 1 + CharIndex(s[1..], k - Utf8Width(s[0]))
  }

  /** The first `CharIndex(s, k)` characters take exactly `k` bytes. */
  lemma {:induction false} CharIndexBytes(s: string, k: nat)
    requires IsCharBoundary(s, k)
    ensures ByteLen(s[..CharIndex(s, k)]) == k
  {
    if k > 0 {
      var i := CharIndex(s, k);
      CharIndexBytes(s[1..], k - Utf8Width(s[0]));
      assert s[..i][0] == s[0];
      assert s[..i][1..] == s[1..][..i - 1];
    }
  }

  lemma {:induction false} CharIndexMonotone(s: string, a: nat, b: nat)
    requires IsCharBoundary(s, a) && IsCharBoundary(s, b) && a <= b
    ensures CharIndex(s, a) <= CharIndex(s, b)
  {
    if a > 0 {
      CharIndexMonotone(s[1..], a - Utf8Width(s[0]), b - Utf8Width(s[0]));
    }
  }

  /** The characters between two byte offsets are exactly as many bytes
      apart as the offsets. */
  lemma {:induction false} ByteLenSlice(s: string, a: nat, b: nat)
    requires IsCharBoundary(s, a) && IsCharBoundary(s, b) && a <= b
    ensures CharIndex(s, a) <= CharIndex(s, b)
    ensures ByteLen(s[CharIndex(s, a)..CharIndex(s, b)]) == b - a
  {
    CharIndexMonotone(s, a, b);
    CharIndexBytes(s, a);
    CharIndexBytes(s, b);
    var i, j := CharIndex(s, a), CharIndex(s, b);
    assert s[..j] == s[..i] + s[i..j];
    ByteLenAppend(s[..i], s[i..j]);
  }

  lemma {:induction false} ByteLenAppend(a: string, b: string)
    ensures ByteLen(a + b) == ByteLen(a) + ByteLen(b)
  {
    if |a| == 0 {
      assert a + b == b;
    } else {
      assert (a + b)[1..] == a[1..] + b;
      ByteLenAppend(a[1..], b);
    }
  }

  /** Over an ASCII prefix, byte offsets and character offsets agree. */
  lemma {:induction false} AsciiOffsets(s: string, k: nat)
    requires k <= |s| && AllAscii(s[..k])
    ensures IsCharBoundary(s, k) && CharIndex(s, k) == k
  {
    if k > 0 {
      assert s[0] == s[..k][0];
      assert s[1..][..k - 1] == s[..k][1..];
      AsciiOffsets(s[1..], k - 1);
    }
  }

  // ---------------------------------------------------------------------------
  // The hexadecimal fields

  /** How a field is read: as `u64::from_str_radix(_, 16)` reads it (one
      leading `+` allowed), or as bare hexadecimal digits only. */
  datatype FieldSyntax = RustRadix | HexOnly

  const U64_LIMIT: nat := 0x1_0000_0000_0000_0000

  predicate IsSignedHex(f: string) {
    2 <= |f| && f[0] == '+' && AllHexDigits(f[1..])
  }

  /** Reads a field in the given syntax; `None` is the parse error. */
  function ParseField(syntax: FieldSyntax, f: string): (r: Option<nat>)
    ensures syntax == HexOnly ==> (r.Some? <==> 1 <= |f| && AllHexDigits(f))
    ensures syntax == HexOnly && r.Some? ==> r.value == HexValue(f)
    ensures syntax == RustRadix && |f| <= 16 ==>
      (r.Some? <==> (1 <= |f| && AllHexDigits(f)) || IsSignedHex(f))
    ensures syntax == RustRadix && r.Some? ==>
      && |f| >= 1
      && var d := (if f[0] == '+' then f[1..] else f);
      AllHexDigits(d) && r.value == HexValue(d)
    ensures r.Some? ==> AllAscii(f) && r.value < Pow16(|f|)
  {
    if |f| == 0 then None
    else if syntax == HexOnly then
      if AllHexDigits(f) then HexValueBound(f); Some(HexValue(f)) else None
    else if (f[0] == '+' || f[0] == '-') && |f| == 1 then None
    else
      var digits := if f[0] == '+' then f[1..] else f;
      if AllHexDigits(digits) then
        HexFitsU64(digits);
        if HexValue(digits) < U64_LIMIT then
          PowMonotone(|digits|, |f|);
          Some(HexValue(digits))
        else None
      else None
  }

  /** A hex string denotes less than 16^length, so at most sixteen digits
      always fit a u64. */
  lemma HexFitsU64(d: string)
    requires AllHexDigits(d)
    ensures HexValue(d) < Pow16(|d|)
    ensures |d| <= 16 ==> HexValue(d) < U64_LIMIT
  {
    HexValueBound(d);
    if |d| <= 16 {
      PowMonotone(|d|, 16);
    }
  }

  lemma {:induction false} PowMonotone(a: nat, b: nat)
    requires a <= b
    ensures Pow16(a) <= Pow16(b)
    ensures b == 16 ==> Pow16(b) == U64_LIMIT
  {
    if a < b {
      PowMonotone(a, b - 1);
    }
    if b == 16 {
      assert Pow16(4) == 0x1_0000;
      assert Pow16(8) == 0x1_0000 * Pow16(4) by { Pow16Add(4, 4); }
      assert Pow16(16) == Pow16(8) * Pow16(8) by { Pow16Add(8, 8); }
    }
  }

  lemma {:induction false} Pow16Add(a: nat, b: nat)
    ensures Pow16(a + b) == Pow16(a) * Pow16(b)
  {
    if b > 0 {
      Pow16Add(a, b - 1);
    }
  }

  // ---------------------------------------------------------------------------
  // div_from_checksum

  /** Why a checksum produced no `<div>`: an HTTP error status, or a panic
      from slicing inside a character. */
  datatype Failure = Status(code: nat) | Panic

  datatype Outcome<T> = Done(value: T) | Failed(failure: Failure)

  /** The snippet written for one package. */
  function DivHtml(colour: string, top: nat, left: nat): string
  {
    "<div style=\"background-color:#" + colour + ";top:" + Decimal(top)
    + "px;left:" + Decimal(left) + "px;\"></div>"
  }

  /** One field: the slice between byte offsets `a` and `b` (which panics
      when `b` is inside a character), read in the given syntax (422 when
      it does not parse). */
  function FieldAt(syntax: FieldSyntax, s: string, a: nat, b: nat): (r: Outcome<nat>)
    requires a <= b && IsCharBoundary(s, a)
    ensures r.Done? ==> IsCharBoundary(s, b) && CharIndex(s, a) <= CharIndex(s, b)
    ensures r.Done? ==> ParseField(syntax, s[CharIndex(s, a)..CharIndex(s, b)]) == Some(r.value)
    ensures r.Failed? ==> r.failure == (if IsCharBoundary(s, b) then Status(UNPROCESSABLE_ENTITY) else Panic)
    ensures IsCharBoundary(s, b) ==>
      (CharIndex(s, a) <= CharIndex(s, b)
       && (ParseField(syntax, s[CharIndex(s, a)..CharIndex(s, b)]).Some? ==> r.Done?))
  {
    if !IsCharBoundary(s, b) then Failed(Panic)
    else
      CharIndexMonotone(s, a, b);
      match ParseField(syntax, s[CharIndex(s, a)..CharIndex(s, b)])
      case Some(v) => Done(v)
      case None => Failed(Status(UNPROCESSABLE_ENTITY))
  }

  /** `div_from_checksum`, step by step: length check, colour slice and
      check, top slice and value, left slice and value, format. */
  function DivFrom(syntax: FieldSyntax, s: string): (r: Outcome<string>)
    ensures ByteLen(s) < 10 ==> r == Failed(Status(UNPROCESSABLE_ENTITY))
    ensures r.Done? ==> ByteLen(s) >= 10 && IsCharBoundary(s, 6)
    ensures r.Failed? ==> r.failure == Status(UNPROCESSABLE_ENTITY) || r.failure == Panic
  {
    if ByteLen(s) < 10 then Failed(Status(UNPROCESSABLE_ENTITY))
    else
      match FieldAt(syntax, s, 0, 6)
      case Failed(f) => Failed(f)
      case Done(_) =>
        match FieldAt(syntax, s, 6, 8)
        case Failed(f) => Failed(f)
        case Done(top) =>
          match FieldAt(syntax, s, 8, 10)
          case Failed(f) => Failed(f)
          case Done(left) => Done(DivHtml(s[..CharIndex(s, 6)], top, left))
  }

  /** `div_from_checksum` as written: fields read by
      `u64::from_str_radix`, which lets a leading `+` through. A success
      still has ten ASCII characters up front; the colour is the first six
      verbatim and the offsets are what `from_str_radix` reads from
      characters 6..8 and 8..10. */
  function DivFromChecksumAsWritten(s: string): (r: Outcome<string>)
    ensures ByteLen(s) < 10 ==> r == Failed(Status(UNPROCESSABLE_ENTITY))
    ensures r.Done? ==>
      && |s| >= 10 && AllAscii(s[..10]) && ParseField(RustRadix, s[..6]).Some?
      && ParseField(RustRadix, s[6..8]).Some? && ParseField(RustRadix, s[8..10]).Some?
      && r.value == DivHtml(s[..6], ParseField(RustRadix, s[6..8]).value, ParseField(RustRadix, s[8..10]).value)
  {
    DivShape(RustRadix, s);
    DivFrom(RustRadix, s)
  }

  /** The checksum as evidently intended: every field bare hex digits. */
  function DivFromChecksum(s: string): (r: Outcome<string>)
    ensures r.Done? ==>
      && |s| >= 10 && AllHexDigits(s[..6]) && AllHexDigits(s[6..8]) && AllHexDigits(s[8..10])
      && r.value == DivHtml(s[..6], HexValue(s[6..8]), HexValue(s[8..10]))
    ensures ByteLen(s) < 10 ==> r == Failed(Status(UNPROCESSABLE_ENTITY))
  {
    HexOnlyShape(s);
    DivFrom(HexOnly, s)
  }

  lemma HexOnlyShape(s: string)
    ensures DivFrom(HexOnly, s).Done? ==>
      && |s| >= 10 && AllHexDigits(s[..6]) && AllHexDigits(s[6..8]) && AllHexDigits(s[8..10])
      && DivFrom(HexOnly, s).value == DivHtml(s[..6], HexValue(s[6..8]), HexValue(s[8..10]))
  {
    DivShape(HexOnly, s);
  }

  /** A field that was read has as many characters as bytes. */
  lemma FieldWidth(syntax: FieldSyntax, s: string, a: nat, b: nat)
    requires a <= b && IsCharBoundary(s, a) && FieldAt(syntax, s, a, b).Done?
    ensures CharIndex(s, b) - CharIndex(s, a) == b - a
    ensures AllAscii(s[CharIndex(s, a)..CharIndex(s, b)])
  {
    ByteLenSlice(s, a, b);
    ByteLenAscii(s[CharIndex(s, a)..CharIndex(s, b)]);
  }

  /** A successful checksum was cut at character offsets 6, 8 and 10,
      and its first ten characters are ASCII. */
  lemma DivOffsets(syntax: FieldSyntax, s: string)
    requires DivFrom(syntax, s).Done?
    ensures IsCharBoundary(s, 6) && IsCharBoundary(s, 8) && IsCharBoundary(s, 10)
    ensures CharIndex(s, 6) == 6 && CharIndex(s, 8) == 8 && CharIndex(s, 10) == 10 && |s| >= 10
    ensures FieldAt(syntax, s, 0, 6).Done? && FieldAt(syntax, s, 6, 8).Done? && FieldAt(syntax, s, 8, 10).Done?
    ensures AllAscii(s[..10])
  {
    DivStages(syntax, s);
    FieldsAscii(syntax, s);
  }

  /** The three fields of a successful checksum were all read. */
  lemma DivStages(syntax: FieldSyntax, s: string)
    requires DivFrom(syntax, s).Done?
    ensures FieldAt(syntax, s, 0, 6).Done? && IsCharBoundary(s, 6)
    ensures FieldAt(syntax, s, 6, 8).Done? && IsCharBoundary(s, 8)
    ensures FieldAt(syntax, s, 8, 10).Done?
  {
  }

  lemma FieldsAscii(syntax: FieldSyntax, s: string)
    requires IsCharBoundary(s, 6) && IsCharBoundary(s, 8)
    requires FieldAt(syntax, s, 0, 6).Done? && FieldAt(syntax, s, 6, 8).Done? && FieldAt(syntax, s, 8, 10).Done?
    ensures IsCharBoundary(s, 10)
    ensures CharIndex(s, 6) == 6 && CharIndex(s, 8) == 8 && CharIndex(s, 10) == 10 && |s| >= 10
    ensures AllAscii(s[..10])
  {
    assert CharIndex(s, 0) == 0;
    FieldWidth(syntax, s, 0, 6);
    FieldWidth(syntax, s, 6, 8);
    FieldWidth(syntax, s, 8, 10);
    var i6, i8, i10 := CharIndex(s, 6), CharIndex(s, 8), CharIndex(s, 10);
    assert i6 == 6 && i8 == 8 && i10 == 10;
    assert AllAscii(s[..0]);
    AsciiJoin(s, 0, 6);
    AsciiJoin(s, 6, 8);
    AsciiJoin(s, 8, 10);
  }

  lemma AsciiJoin(s: string, i: nat, j: nat)
    requires i <= j <= |s| && AllAscii(s[..i]) && AllAscii(s[i..j])
    ensures AllAscii(s[..j])
  {
    forall k | 0 <= k < j
      ensures IsAscii(s[..j][k])
    {
      if k < i {
        assert s[..j][k] == s[..i][k];
      } else {
        assert s[..j][k] == s[i..j][k - i];
      }
    }
  }

  /** Whatever the field syntax: a successful checksum has ten ASCII
      characters up front, the colour is its first six characters verbatim,
      and the offsets are the values of characters 6..8 and 8..10, each at
      most 255. */
  lemma DivShape(syntax: FieldSyntax, s: string)
    ensures DivFrom(syntax, s).Done? ==>
      && |s| >= 10 && AllAscii(s[..10])
      && ParseField(syntax, s[..6]).Some?
      && ParseField(syntax, s[6..8]).Some? && ParseField(syntax, s[6..8]).value <= 255
      && ParseField(syntax, s[8..10]).Some? && ParseField(syntax, s[8..10]).value <= 255
      && DivFrom(syntax, s).value
         == DivHtml(s[..6], ParseField(syntax, s[6..8]).value, ParseField(syntax, s[8..10]).value)
  {
    if DivFrom(syntax, s).Done? {
      DivOffsets(syntax, s);
      assert s[0..6] == s[..6];
      assert Pow16(2) == 256;
    }
  }

  /** Over an ASCII prefix a field never panics: it is read from the
      characters between the two offsets. */
  lemma FieldAtAscii(syntax: FieldSyntax, s: string, a: nat, b: nat)
    requires a <= b <= |s| && AllAscii(s[..b])
    ensures IsCharBoundary(s, a)
    ensures FieldAt(syntax, s, a, b)
      == match ParseField(syntax, s[a..b]) case Some(v) => Done(v) case None => Failed(Status(UNPROCESSABLE_ENTITY))
  {
    assert s[..b][..a] == s[..a];
    AsciiOffsets(s, a);
    AsciiOffsets(s, b);
  }

  /** For a checksum whose first ten characters are ASCII the byte slicing
      is the character slicing, so the only failure is 422, and it happens
      exactly when one of the three fields does not parse. */
  lemma DivAscii(syntax: FieldSyntax, s: string)
    requires |s| >= 10 && AllAscii(s[..10])
    ensures DivFrom(syntax, s).Done? <==>
      ParseField(syntax, s[..6]).Some? && ParseField(syntax, s[6..8]).Some? && ParseField(syntax, s[8..10]).Some?
    ensures DivFrom(syntax, s).Failed? ==> DivFrom(syntax, s) == Failed(Status(UNPROCESSABLE_ENTITY))
  {
    assert AllAscii(s[..10][..6]) && AllAscii(s[..10][..8]);
    assert s[..10][..6] == s[..6] && s[..10][..8] == s[..8];
    assert s[0..6] == s[..6];
    FieldAtAscii(syntax, s, 0, 6);
    FieldAtAscii(syntax, s, 6, 8);
    FieldAtAscii(syntax, s, 8, 10);
    assert ByteLen(s) >= 10;
  }

  /** After ten ASCII characters, whatever follows never matters. */
  lemma DivIgnoresTail(syntax: FieldSyntax, s: string, t: string)
    requires |s| == 10 && AllAscii(s)
    ensures DivFrom(syntax, s + t) == DivFrom(syntax, s)
  {
    var u := s + t;
    assert u[..10] == s && u[..6] == s[..6] && u[6..8] == s[6..8] && u[8..10] == s[8..10];
    assert s[..10] == s;
    DivAscii(syntax, s);
    DivAscii(syntax, u);
    DivShape(syntax, s);
    DivShape(syntax, u);
  }

  /** With the corrected field syntax: a checksum of at least ten ASCII
      characters succeeds exactly when its first ten are hex digits, and
      then the colour keeps its leading zeros. */
  lemma DivFromChecksumHex(s: string)
    requires |s| >= 10 && AllAscii(s[..10])
    ensures DivFromChecksum(s).Done? <==> AllHexDigits(s[..10])
    ensures DivFromChecksum(s).Failed? ==> DivFromChecksum(s) == Failed(Status(UNPROCESSABLE_ENTITY))
  {
    DivAscii(HexOnly, s);
    HexFields(s);
  }

  /** The first ten characters are hex digits exactly when each of the
      three fields is. */
  lemma HexFields(s: string)
    requires |s| >= 10
    ensures AllHexDigits(s[..10]) <==> AllHexDigits(s[..6]) && AllHexDigits(s[6..8]) && AllHexDigits(s[8..10])
  {
    if AllHexDigits(s[..6]) && AllHexDigits(s[6..8]) && AllHexDigits(s[8..10]) {
      forall k | 0 <= k < 10
        ensures IsHexDigit(s[..10][k])
      {
        if k < 6 {
          assert s[..10][k] == s[..6][k];
        } else if k < 8 {
          assert s[..10][k] == s[6..8][k - 6];
        } else {
          assert s[..10][k] == s[8..10][k - 8];
        }
      }
    }
    if AllHexDigits(s[..10]) {
      assert s[..6] == s[..10][..6] && s[6..8] == s[..10][6..8] && s[8..10] == s[..10][8..10];
    }
  }

  /** The colour check in `div_from_checksum` lets a leading `+` through: the checksum
      "+12345ffff" yields the `<div>` with colour "+12345" and both offsets
      255, though "+12345" is not six hex digits; the corrected reading
      refuses it with 422. */
  lemma PlusSignColour()
    ensures !AllHexDigits("+12345")
    ensures DivFromChecksumAsWritten("+12345ffff") == Done(DivHtml("+12345", 255, 255))
    ensures DivFromChecksum("+12345ffff") == Failed(Status(UNPROCESSABLE_ENTITY))
  {
    ExampleFields();
    ExampleSlices();
    PlusSignAccepted();
    DivAscii(HexOnly, "+12345ffff");
  }

  lemma PlusSignAccepted()
    ensures DivFromChecksumAsWritten("+12345ffff") == Done(DivHtml("+12345", 255, 255))
  {
    var s := "+12345ffff";
    ExampleFields();
    ExampleSlices();
    DivAscii(RustRadix, s);
    DivShape(RustRadix, s);
  }

  lemma ExampleSlices()
    ensures var s := "+12345ffff";
      |s| == 10 && AllAscii(s[..10]) && s[..6] == "+12345" && s[6..8] == "ff" && s[8..10] == "ff"
  {
    var s := "+12345ffff";
    assert s[..10] == s;
  }

  lemma ExampleFields()
    ensures !AllHexDigits("+12345")
    ensures ParseField(RustRadix, "+12345").Some?
    ensures ParseField(HexOnly, "+12345").None?
    ensures ParseField(RustRadix, "ff") == Some(255)
  {
    assert !IsHexDigit("+12345"[0]);
    assert IsSignedHex("+12345") by { assert "+12345"[1..] == "12345"; }
    assert AllHexDigits("ff");
    assert HexValue("ff") == 255 by { assert "ff"[..1] == "f"; }
  }

  // ---------------------------------------------------------------------------
  // lockfile

  /** The `<div>`s of the packages that carry a checksum, in order, each
      read in the given field syntax: `RustRadix` is the handler as
      written, `HexOnly` the corrected one. A failure is the failure of
      some package's checksum. */
  function LockfileSpec(syntax: FieldSyntax, packages: seq<Option<string>>): (r: Outcome<string>)
    ensures r.Failed? ==>
      exists i :: 0 <= i < |packages| && packages[i].Some? && DivFrom(syntax, packages[i].value) == r
  {
    if |packages| == 0 then Done("")
    else
      var rest := LockfileSpec(syntax, packages[1..]);
      match packages[0]
      case None => assert rest.Failed? ==> forall i :: 0 <= i < |packages[1..]| ==> packages[1..][i] == packages[i + 1]; rest
      case Some(c) =>
        match DivFrom(syntax, c)
        case Failed(f) => Failed(f)
        case Done(d) =>
          if rest.Done? then Done(d + rest.value)
          else assert forall i :: 0 <= i < |packages[1..]| ==> packages[1..][i] == packages[i + 1]; rest
  }

  /** `prefix` put in front of a successful outcome. */
  function After(prefix: string, o: Outcome<string>): Outcome<string>
  {
    if o.Done? then Done(prefix + o.value) else o
  }

  lemma AfterAfter(a: string, b: string, o: Outcome<string>)
    ensures After(a, After(b, o)) == After(a + b, o)
  {
    if o.Done? {
      assert a + (b + o.value) == (a + b) + o.value;
    }
  }

  lemma LockfileUnfold(syntax: FieldSyntax, packages: seq<Option<string>>)
    requires |packages| > 0
    ensures LockfileSpec(syntax, packages) ==
      if packages[0].None? then LockfileSpec(syntax, packages[1..])
      else if DivFrom(syntax, packages[0].value).Failed? then Failed(DivFrom(syntax, packages[0].value).failure)
      else After(DivFrom(syntax, packages[0].value).value, LockfileSpec(syntax, packages[1..]))
  {
  }

  /** The `lockfile` loop: skip packages without a checksum, append each
      `<div>`, and give up with the first failure. */
  method Lockfile(syntax: FieldSyntax, packages: seq<Option<string>>) returns (r: Outcome<string>)
    ensures r == LockfileSpec(syntax, packages)
  {
    var res := "";
    var i := 0;
    assert packages[i..] == packages;
    assert LockfileSpec(syntax, packages).Done? ==>
      "" + LockfileSpec(syntax, packages).value == LockfileSpec(syntax, packages).value;
    while i < |packages|
      invariant 0 <= i <= |packages|
      invariant LockfileSpec(syntax, packages) == After(res, LockfileSpec(syntax, packages[i..]))
    {
      LockfileStep(syntax, packages, i, res);
      if packages[i].Some? {
        var div := DivFrom(syntax, packages[i].value);
        if div.Failed? {
          return Failed(div.failure);
        }
        res := res + div.value;
      }
      i := i + 1;
    }
    assert packages[i..] == [];
    assert res + "" == res;
    r := Done(res);
  }

  /** One turn of the `lockfile` loop keeps the fold's result. */
  lemma LockfileStep(syntax: FieldSyntax, packages: seq<Option<string>>, i: nat, res: string)
    requires i < |packages|
    requires LockfileSpec(syntax, packages) == After(res, LockfileSpec(syntax, packages[i..]))
    ensures packages[i].None? ==>
      LockfileSpec(syntax, packages) == After(res, LockfileSpec(syntax, packages[i + 1..]))
    ensures packages[i].Some? && DivFrom(syntax, packages[i].value).Failed? ==>
      LockfileSpec(syntax, packages) == Failed(DivFrom(syntax, packages[i].value).failure)
    ensures packages[i].Some? && DivFrom(syntax, packages[i].value).Done? ==>
      LockfileSpec(syntax, packages)
      == After(res + DivFrom(syntax, packages[i].value).value, LockfileSpec(syntax, packages[i + 1..]))
  {
    assert packages[i..][1..] == packages[i + 1..];
    LockfileUnfold(syntax, packages[i..]);
    if packages[i].Some? && DivFrom(syntax, packages[i].value).Done? {
      AfterAfter(res, DivFrom(syntax, packages[i].value).value, LockfileSpec(syntax, packages[i + 1..]));
    }
  }

  /** Folding two package lists back to back: the first list's failure,
      if any, is the result; otherwise its body comes in front of the
      second list's outcome. */
  lemma {:induction false} LockfileAppend(syntax: FieldSyntax, a: seq<Option<string>>, b: seq<Option<string>>)
    ensures LockfileSpec(syntax, a + b) ==
      if LockfileSpec(syntax, a).Failed? then LockfileSpec(syntax, a)
      else After(LockfileSpec(syntax, a).value, LockfileSpec(syntax, b))
  {
    if |a| == 0 {
      assert a + b == b;
      var o := LockfileSpec(syntax, b);
      assert o.Done? ==> "" + o.value == o.value;
    } else {
      assert (a + b)[0] == a[0];
      assert (a + b)[1..] == a[1..] + b;
      LockfileUnfold(syntax, a + b);
      LockfileUnfold(syntax, a);
      LockfileAppend(syntax, a[1..], b);
      var rest := LockfileSpec(syntax, a[1..]);
      if a[0].Some? && DivFrom(syntax, a[0].value).Done? && rest.Done? {
        AfterAfter(DivFrom(syntax, a[0].value).value, rest.value, LockfileSpec(syntax, b));
      }
    }
  }

  /** The `<div>`s of every present checksum, in package order. */
  function Divs(syntax: FieldSyntax, packages: seq<Option<string>>): seq<string>
    requires forall i :: 0 <= i < |packages| && packages[i].Some? ==> DivFrom(syntax, packages[i].value).Done?
  {
    if |packages| == 0 then []
    else
      var rest := Divs(syntax, packages[1..]);
      if packages[0].Some? then [DivFrom(syntax, packages[0].value).value] + rest else rest
  }

  /** The lockfile succeeds exactly when every present checksum does, and
      then its body is their `<div>`s concatenated in order. */
  lemma {:induction false} LockfileSucceeds(syntax: FieldSyntax, packages: seq<Option<string>>)
    ensures LockfileSpec(syntax, packages).Done? <==>
      forall i :: 0 <= i < |packages| && packages[i].Some? ==> DivFrom(syntax, packages[i].value).Done?
    ensures LockfileSpec(syntax, packages).Done? ==> LockfileSpec(syntax, packages).value == Concat(Divs(syntax, packages))
  {
    if |packages| > 0 {
      LockfileSucceeds(syntax, packages[1..]);
      var ok := forall i :: 0 <= i < |packages| && packages[i].Some? ==> DivFrom(syntax, packages[i].value).Done?;
      if ok {
        forall i | 0 <= i < |packages[1..]| && packages[1..][i].Some?
          ensures DivFrom(syntax, packages[1..][i].value).Done?
        {
          assert packages[1..][i] == packages[i + 1];
        }
      } else {
        var k :| 0 <= k < |packages| && packages[k].Some? && DivFrom(syntax, packages[k].value).Failed?;
        if k > 0 {
          assert packages[1..][k - 1] == packages[k];
        }
      }
    }
  }

  /** The first failing checksum decides the failure: packages before it
      that carry a checksum all succeed, and its failure is the result. */
  lemma {:induction false} LockfileFirstFailure(syntax: FieldSyntax, packages: seq<Option<string>>, k: nat)
    requires k < |packages| && packages[k].Some? && DivFrom(syntax, packages[k].value).Failed?
    requires forall j :: 0 <= j < k && packages[j].Some? ==> DivFrom(syntax, packages[j].value).Done?
    ensures LockfileSpec(syntax, packages) == DivFrom(syntax, packages[k].value)
  {
    LockfileUnfold(syntax, packages);
    if k > 0 {
      var rest := packages[1..];
      assert rest[k - 1] == packages[k];
      forall j | 0 <= j < k - 1 && rest[j].Some?
        ensures DivFrom(syntax, rest[j].value).Done?
      {
        assert rest[j] == packages[j + 1];
      }
      LockfileFirstFailure(syntax, rest, k - 1);
      assert packages[0].Some? ==> DivFrom(syntax, packages[0].value).Done?;
    }
  }

  /** The `+` of the colour check reaches the lockfile: as written, a
      lockfile whose one checksum is "+12345ffff" answers with the `<div>`
      coloured "+12345"; the corrected handler answers 422. */
  lemma PlusSignLockfile()
    ensures LockfileSpec(RustRadix, [Some("+12345ffff")]) == Done(DivHtml("+12345", 255, 255))
    ensures LockfileSpec(HexOnly, [Some("+12345ffff")]) == Failed(Status(UNPROCESSABLE_ENTITY))
  {
    PlusSignColour();
    LockfileSingle(RustRadix, "+12345ffff");
    LockfileSingle(HexOnly, "+12345ffff");
  }

  /** A lockfile with one checksum answers what that checksum does. */
  lemma LockfileSingle(syntax: FieldSyntax, c: string)
    ensures LockfileSpec(syntax, [Some(c)]) == DivFrom(syntax, c)
  {
    var p := [Some(c)];
    LockfileUnfold(syntax, p);
    assert p[1..] == [];
    if DivFrom(syntax, c).Done? {
      assert DivFrom(syntax, c).value + "" == DivFrom(syntax, c).value;
    }
  }
}

=== FILE: html.dfy ===
/** Day 23: `escape_string`, the HTML escaping applied to every path segment
    before it is matched or echoed into a snippet. `escape_string` is a
    chain of six `str::replace` calls; this module shows that, because `&` is
    replaced first, the chain is the same as escaping each character on its
    own, and that the escaping can be undone. */
module Html {

  /** The six characters `escape_string` rewrites. */
  predicate IsSpecial(c: char) {
    c == '&' || c == '<' || c == '>' || c == '"' || c == '\'' || c == '/'
  }

  /** The five characters that could open a tag, close an attribute or
      add a path segment. */
  predicate IsUnsafe(c: char) {
    c == '<' || c == '>' || c == '"' || c == '\'' || c == '/'
  }

  predicate Plain(s: string) {
    forall i :: 0 <= i < |s| ==> !IsSpecial(s[i])
  }

  predicate Safe(s: string) {
    forall i :: 0 <= i < |s| ==> !IsUnsafe(s[i])
  }

  /** The per-character escape table. */
  function EscapeChar(c: char): (e: string)
    ensures Safe(e)
    ensures !IsSpecial(c) <==> e == [c]
  {
    if c == '&' then "&amp;"
    else if c == '<' then "&lt;"
    else if c == '>' then "&gt;"
    else if c == '"' then "&quot;"
    else if c == '\'' then "&#x27;"
    else if c == '/' then "&#x2F;"
    else [c]
  }

  /** Escaping character by character: each character replaced by its
      table entry, in order. The result holds none of the five unsafe
      characters, and a string without special characters is left alone. */
  function Escape(s: string): (r: string)
    ensures Safe(r)
    ensures Plain(s) ==> r == s
    ensures |r| >= |s|
  {
    if |s| == 0 then ""
    else
      var head, tail := EscapeChar(s[0]), Escape(s[1..]);
      assert Safe(head + tail) by {
        forall i | 0 <= i < |head + tail|
          ensures !IsUnsafe((head + tail)[i])
        {
          if i >= |head| {
            assert (head + tail)[i] == tail[i - |head|];
          }
        }
      }
      assert Plain(s) ==> !IsSpecial(s[0]) && Plain(s[1..]) by {
        if Plain(s) {
          forall i | 0 <= i < |s[1..]|
            ensures !IsSpecial(s[1..][i])
          {
            assert s[1..][i] == s[i + 1];
          }
        }
      }
      assert [s[0]] + s[1..] == s;
      head + tail
  }

  /** `str::replace` with a one-character pattern: every occurrence of `c`
      in `s` becomes `rep`, left to right. */
  function ReplaceAll(s: string, c: char, rep: string): string
  {
    if |s| == 0 then ""
    else (if s[0] == c then rep else [s[0]]) + ReplaceAll(s[1..], c, rep)
  }

  lemma {:induction false} ReplaceAllAppend(a: string, b: string, c: char, rep: string)
    ensures ReplaceAll(a + b, c, rep) == ReplaceAll(a, c, rep) + ReplaceAll(b, c, rep)
  {
    if |a| == 0 {
      assert a + b == b;
    } else {
      assert (a + b)[1..] == a[1..] + b;
      ReplaceAllAppend(a[1..], b, c, rep);
    }
  }

  lemma {:induction false} ReplaceAllAbsent(s: string, c: char, rep: string)
    requires c !in s
    ensures ReplaceAll(s, c, rep) == s
  {
    if |s| > 0 {
      ReplaceAllAbsent(s[1..], c, rep);
      assert [s[0]] + s[1..] == s;
    }
  }

  /** The replace chain exactly as `escape_string` writes it. */
  function ReplaceChain(s: string): string
  {
    var s1 := ReplaceAll(s, '&', "&amp;");
    var s2 := ReplaceAll(s1, '<', "&lt;");
    var s3 := ReplaceAll(s2, '>', "&gt;");
    var s4 := ReplaceAll(s3, '"', "&quot;");
    var s5 := ReplaceAll(s4, '\'', "&#x27;");
    ReplaceAll(s5, '/', "&#x2F;")
  }

  lemma ReplaceChainAppend(a: string, b: string)
    ensures ReplaceChain(a + b) == ReplaceChain(a) + ReplaceChain(b)
  {
    ReplaceAllAppend(a, b, '&', "&amp;");
    var a1, b1 := ReplaceAll(a, '&', "&amp;"), ReplaceAll(b, '&', "&amp;");
    ReplaceAllAppend(a1, b1, '<', "&lt;");
    var a2, b2 := ReplaceAll(a1, '<', "&lt;"), ReplaceAll(b1, '<', "&lt;");
    ReplaceAllAppend(a2, b2, '>', "&gt;");
    var a3, b3 := ReplaceAll(a2, '>', "&gt;"), ReplaceAll(b2, '>', "&gt;");
    ReplaceAllAppend(a3, b3, '"', "&quot;");
    var a4, b4 := ReplaceAll(a3, '"', "&quot;"), ReplaceAll(b3, '"', "&quot;");
    ReplaceAllAppend(a4, b4, '\'', "&#x27;");
    var a5, b5 := ReplaceAll(a4, '\'', "&#x27;"), ReplaceAll(b4, '\'', "&#x27;");
    ReplaceAllAppend(a5, b5, '/', "&#x2F;");
  }

  /** One replacement of the chain applied to a one-character string. */
  lemma ReplaceOne(c: char, d: char, rep: string)
    ensures ReplaceAll([c], d, rep) == if c == d then rep else [c]
  {
  }

  /** On a single character the chain produces that character's table
      entry: no later replacement touches what an earlier one wrote. */
  lemma ReplaceChainChar(c: char)
    ensures ReplaceChain([c]) == EscapeChar(c)
  {
    var e := EscapeChar(c);
    ReplaceOne(c, '&', "&amp;");
    if c == '&' {
      ReplaceAllAbsent(e, '<', "&lt;");
      ReplaceAllAbsent(e, '>', "&gt;");
      ReplaceAllAbsent(e, '"', "&quot;");
      ReplaceAllAbsent(e, '\'', "&#x27;");
      ReplaceAllAbsent(e, '/', "&#x2F;");
    } else {
      ReplaceOne(c, '<', "&lt;");
      if c == '<' {
        ReplaceAllAbsent(e, '>', "&gt;");
        ReplaceAllAbsent(e, '"', "&quot;");
        ReplaceAllAbsent(e, '\'', "&#x27;");
        ReplaceAllAbsent(e, '/', "&#x2F;");
      } else {
        ReplaceOne(c, '>', "&gt;");
        if c == '>' {
          ReplaceAllAbsent(e, '"', "&quot;");
          ReplaceAllAbsent(e, '\'', "&#x27;");
          ReplaceAllAbsent(e, '/', "&#x2F;");
        } else {
          ReplaceOne(c, '"', "&quot;");
          if c == '"' {
            ReplaceAllAbsent(e, '\'', "&#x27;");
            ReplaceAllAbsent(e, '/', "&#x2F;");
          } else {
            ReplaceOne(c, '\'', "&#x27;");
            if c == '\'' {
              ReplaceAllAbsent(e, '/', "&#x2F;");
            } else {
              ReplaceOne(c, '/', "&#x2F;");
            }
          }
        }
      }
    }
  }

  /** The chain of replacements equals the per-character escape. */
  lemma {:induction false} ReplaceChainIsEscape(s: string)
    ensures ReplaceChain(s) == Escape(s)
  {
    if |s| > 0 {
      assert s == [s[0]] + s[1..];
      ReplaceChainAppend([s[0]], s[1..]);
      ReplaceChainChar(s[0]);
      ReplaceChainIsEscape(s[1..]);
    }
  }

  /** `escape_string`: computed by the replace chain, and equal to the
      per-character escape of its input. */
  function EscapeString(s: string): (r: string)
    ensures r == Escape(s)
  {
    ReplaceChainIsEscape(s);
    ReplaceChain(s)
  }

  // ---------------------------------------------------------------------------
  // Undoing the escape

  /** Reads the six entities back to their characters; anything else is
      copied through. */
  function Unescape(s: string): string
    decreases |s|
  {
    if |s| == 0 then ""
    else if s[0] != '&' then [s[0]] + Unescape(s[1..])
    else if "&amp;" <= s then "&" + Unescape(s[5..])
    else if "&lt;" <= s then "<" + Unescape(s[4..])
    else if "&gt;" <= s then ">" + Unescape(s[4..])
    else if "&quot;" <= s then "\"" + Unescape(s[6..])
    else if "&#x27;" <= s then "'" + Unescape(s[6..])
    else if "&#x2F;" <= s then "/" + Unescape(s[6..])
    else "&" + Unescape(s[1..])
  }

  /** Unescaping an entity followed by anything reads the entity's
      character, then carries on after the entity. */
  lemma UnescapeEntity(c: char, rest: string)
    requires IsSpecial(c)
    ensures Unescape(EscapeChar(c) + rest) == [c] + Unescape(rest)
  {
    var e := EscapeChar(c);
    var t := e + rest;
    assert t[..|e|] == e && t[|e|..] == rest;
    if c != '&' {
      assert t[1] == e[1] != 'a';
      assert !("&amp;" <= t);
      if c != '<' {
        assert t[1] == e[1] != 'l';
        assert !("&lt;" <= t);
        if c != '>' {
          assert t[1] == e[1] != 'g';
          assert !("&gt;" <= t);
          if c != '"' {
            assert t[1] == e[1] != 'q';
            assert !("&quot;" <= t);
            if c != '\'' {
              assert t[4] == e[4] != '7';
              assert !("&#x27;" <= t);
            }
          }
        }
      }
    }
  }

  /** Escaping loses nothing: unescaping its output gives the input back. */
  lemma {:induction false} UnescapeEscape(s: string)
    ensures Unescape(Escape(s)) == s
  {
    if |s| > 0 {
      var c, rest := s[0], Escape(s[1..]);
      assert Escape(s) == EscapeChar(c) + rest;
      UnescapeEscape(s[1..]);
      if IsSpecial(c) {
        UnescapeEntity(c, rest);
      } else {
        assert (EscapeChar(c) + rest)[1..] == rest;
      }
      assert [c] + s[1..] == s;
    }
  }

  /** Escaping is injective: two inputs escape alike only if equal. */
  lemma EscapeInjective(s: string, t: string)
    requires Escape(s) == Escape(t)
    ensures s == t
  {
    UnescapeEscape(s);
    UnescapeEscape(t);
  }
}

=== FILE: ipv4.dfy ===
/** Day 2: IPv4 "destination" and "key" arithmetic. An address is its four
    octets; `dest` adds a key to a source address octet by octet with u8
    wrap-around, `key` subtracts the source from a destination the same way,
    and each answer is rendered in dotted-decimal form. */
module Ipv4 {
  import opened Wrappers
  import opened Text

  type Octet = x: int | 0 <= x < 256

  /** `Ipv4Addr::octets()`: most significant first. */
  type Octets = a: seq<Octet> | |a| == 4 witness [0, 0, 0, 0]

  const Zero: Octets := [0, 0, 0, 0]

  /** `u8::wrapping_add`: the true sum, less 256 when it overflows. */
  function WrappingAdd(x: Octet, y: Octet): (r: Octet)
    ensures x + y < 256 ==> r == x + y
    ensures x + y >= 256 ==> r == x + y - 256
  {
    (x + y) % 256
  }

  /** `u8::wrapping_sub`: the true difference, plus 256 when it underflows. */
  function WrappingSub(x: Octet, y: Octet): (r: Octet)
    ensures x >= y ==> r == x - y
    ensures x < y ==> r == x - y + 256
  {
    (x - y) % 256
  }

  /** The octets `dest_v4` computes: `from` zipped with `key`, added pairwise. */
  function DestOctets(from: Octets, key: Octets): Octets
  {
    seq(4, i requires 0 <= i < 4 => WrappingAdd(from[i], key[i]))
  }

  /** The octets `key_v4` computes: `to` zipped with `from`, subtracted pairwise. */
  function KeyOctets(from: Octets, to: Octets): Octets
  {
    seq(4, i requires 0 <= i < 4 => WrappingSub(to[i], from[i]))
  }

  /** The four octets, each in decimal, in order. */
  function Components(a: Octets): (parts: seq<string>)
    ensures |parts| == 4
  {
    seq(4, i requires 0 <= i < 4 => Decimal(a[i]))
  }

  /** Dotted-decimal rendering: the components joined with ".". */
  function Render(a: Octets): string
  {
    Join(Components(a), '.')
  }

  /** `dest_v4`: the rendered destination address. */
  function Dest(from: Octets, key: Octets): (r: string)
    ensures |Split(r, '.')| == 4
    ensures forall i :: 0 <= i < 4 ==> Split(r, '.')[i] == Decimal((from[i] as int + key[i]) % 256)
  {
    RenderShape(DestOctets(from, key));
    Render(DestOctets(from, key))
  }

  /** `key_v4`: the rendered key address. */
  function Key(from: Octets, to: Octets): (r: string)
    ensures |Split(r, '.')| == 4
    ensures forall i :: 0 <= i < 4 ==> Split(r, '.')[i] == Decimal((to[i] as int - from[i]) % 256)
  {
    RenderShape(KeyOctets(from, to));
    Render(KeyOctets(from, to))
  }

  // ---------------------------------------------------------------------------
  // Reading a dotted-decimal address back

  predicate IsOctetText(p: string) {
    1 <= |p| && AllDigits(p) && DecimalValue(p) < 256
  }

  /** Reads four "."-separated decimal numbers below 256. */
  function Parse(s: string): (r: Option<Octets>)
    ensures r.Some? <==> |Split(s, '.')| == 4 && forall i :: 0 <= i < 4 ==> IsOctetText(Split(s, '.')[i])
  {
    var parts := Split(s, '.');
    if |parts| == 4 && forall i :: 0 <= i < 4 ==> IsOctetText(parts[i]) then
      Some(seq(4, i requires 0 <= i < 4 => DecimalValue(parts[i])))
    else
      None
  }

  // ---------------------------------------------------------------------------
  // Properties

  /** Rendering gives exactly four non-empty decimal components, in order,
      each at most three digits and denoting a value in [0, 255], with
      exactly three dots between them. */
  lemma RenderShape(a: Octets)
    ensures Split(Render(a), '.') == Components(a)
    ensures Count(Render(a), '.') == 3
    ensures forall i :: 0 <= i < 4 ==>
      var p := Split(Render(a), '.')[i];
      IsOctetText(p) && |p| <= 3 && DecimalValue(p) == a[i]
  {
    var parts := Components(a);
    assert NoneContains(parts, '.') by {
      forall i | 0 <= i < 4
        ensures '.' !in parts[i]
      {
        assert AllDigits(parts[i]);
      }
    }
    SplitJoin(parts, '.');
    CountJoin(parts, '.');
  }

  /** Reading a rendered address gives back its octets. */
  lemma ParseRender(a: Octets)
    ensures Parse(Render(a)) == Some(a)
  {
    RenderShape(a);
    var parts := Split(Render(a), '.');
    assert seq(4, i requires 0 <= i < 4 => DecimalValue(parts[i])) == a;
  }

  /** Rendering is injective: two addresses print alike only if equal. */
  lemma RenderInjective(a: Octets, b: Octets)
    requires Render(a) == Render(b)
    ensures a == b
  {
    ParseRender(a);
    ParseRender(b);
  }

  /** Adding the key that `key_v4` derives from `from` to `to` lands on `to`. */
  lemma DestOfKey(from: Octets, to: Octets)
    ensures DestOctets(from, KeyOctets(from, to)) == to
  {
  }

  /** Subtracting `from` from `dest_v4(from, key)` recovers `key`. */
  lemma KeyOfDest(from: Octets, key: Octets)
    ensures KeyOctets(from, DestOctets(from, key)) == key
  {
  }

  /** The same round trip through the rendered strings: the text `key_v4`
      answers, read back and fed to `dest_v4`, renders the original `to`. */
  lemma DestOfKeyText(from: Octets, to: Octets)
    ensures Parse(Key(from, to)).Some?
    ensures Dest(from, Parse(Key(from, to)).value) == Render(to)
  {
    ParseRender(KeyOctets(from, to));
    DestOfKey(from, to);
  }

  /** The key 0.0.0.0 leaves an address where it is, and the key from an
      address to itself is 0.0.0.0. */
  lemma ZeroKey(a: Octets)
    ensures DestOctets(a, Zero) == a
    ensures KeyOctets(a, a) == Zero
    ensures Key(a, a) == "0.0.0.0"
  {
    assert Components(Zero) == ["0", "0", "0", "0"];
  }
}

=== FILE: manifest.dfy ===
/** Day 5: the manifest handler, after the document has been parsed. The
    decision runs in a fixed order: the Content-Type picks a parser (or the
    request is refused with 415), a document that fails to parse or has no
    `package` table is refused with 400, a package without the magic
    keyword is refused with 400, and otherwise the orders with a usable
    quantity become the lines of a 200 body, or 204 when there are none. */
module Manifest {
  import opened Wrappers
  import opened Text

  const MAGIC_KEYWORD: string := "Christmas 2024"
  const INVALID_MANIFEST: string := "Invalid manifest"
  const NO_MAGIC_KEYWORD: string := "Magic keyword not provided"

  /** The three document syntaxes the handler accepts. */
  datatype Format = Toml | Yaml | Json

  /** `package.keywords`: absent, a local list, or inherited from the
      workspace (which `as_local` turns into nothing). */
  datatype Keywords = NoKeywords | Local(words: seq<string>) | Inherited

  /** The `quantity` field as written in the document: absent, an integer,
      or something else (a string, a float, a table...). */
  datatype RawQuantity = Missing | Integer(n: int) | Malformed

  datatype Order = Order(item: string, quantity: RawQuantity)

  /** `package.metadata` is `None` when the table is absent; its `orders`
      default to the empty list. */
  datatype Package = Package(keywords: Keywords, metadata: Option<seq<Order>>)

  datatype Manifest = Manifest(package: Option<Package>)

  /** The parser the Content-Type header selects; the comparison is exact. */
  function FormatOf(contentType: Option<string>): (r: Option<Format>)
    ensures r.Some? <==> contentType in {Some("application/toml"), Some("application/yaml"), Some("application/json")}
    ensures contentType == Some("application/toml") ==> r == Some(Toml)
    ensures contentType == Some("application/yaml") ==> r == Some(Yaml)
    ensures contentType == Some("application/json") ==> r == Some(Json)
  {
    match contentType
    case Some(ct) =>
      if ct == "application/toml" then Some(Toml)
      else if ct == "application/yaml" then Some(Yaml)
      else if ct == "application/json" then Some(Json)
      else None
    case None => None
  }

  /** The `Option<u32>` that `DefaultOnError` leaves: the value when it is an
      integer that fits a u32, nothing otherwise. */
  function Quantity(q: RawQuantity): (r: Option<nat>)
    ensures r.Some? <==> q.Integer? && 0 <= q.n < 0x1_0000_0000
    ensures r.Some? ==> r.value == q.n
  {
    match q
    case Integer(n) => if 0 <= n < 0x1_0000_0000 then Some(n) else None
    case _ => None
  }

  /** Whether the package's keywords are a local list holding the magic
      keyword exactly. */
  predicate HasMagicKeyword(k: Keywords) {
    k.Local? && MAGIC_KEYWORD in k.words
  }

  /** One order's line, "item: quantity". */
  function OrderLine(item: string, quantity: nat): string
  {
    item + ": " + Decimal(quantity)
  }

  /** The `filter_map` over the orders: a line per order with a usable
      quantity, in order. */
  function OrderLines(orders: seq<Order>): (lines: seq<string>)
    ensures |lines| <= |orders|
  {
    if |orders| == 0 then []
    else
      var q := Quantity(orders[0].quantity);
      (if q.Some? then [OrderLine(orders[0].item, q.value)] else []) + OrderLines(orders[1..])
  }

  /** The text of the orders, when there is any: `None` for absent metadata
      and for an empty join. */
  function OrdersText(metadata: Option<seq<Order>>): Option<string>
  {
    match metadata
    case None => None
    case Some(orders) =>
      var text := Join(OrderLines(orders), '\n');
      if text == "" then None else Some(text)
  }

  /** `manifest`, from the Content-Type and the three parsers applied to the
      request body. It answers one of four statuses; 415 exactly for an
      unsupported Content-Type, 400 only with one of its two messages, and
      200 or 204 only for a parsed package carrying the magic keyword. */
  function HandleManifest(contentType: Option<string>, parse: Format -> Option<Manifest>): (r: Response)
    ensures r.status in {OK, NO_CONTENT, BAD_REQUEST, UNSUPPORTED_MEDIA_TYPE}
    ensures r.status == UNSUPPORTED_MEDIA_TYPE <==> FormatOf(contentType).None?
    ensures r.status == UNSUPPORTED_MEDIA_TYPE ==> r.body == ""
    ensures r.status == BAD_REQUEST ==> r.body == INVALID_MANIFEST || r.body == NO_MAGIC_KEYWORD
    ensures r.status == OK || r.status == NO_CONTENT ==>
      && FormatOf(contentType).Some?
      && var m := parse(FormatOf(contentType).value);
      && m.Some? && m.value.package.Some? && HasMagicKeyword(m.value.package.value.keywords)
  {
    match FormatOf(contentType)
    case None => Response(UNSUPPORTED_MEDIA_TYPE, "")
    case Some(format) =>
      var package := match parse(format) case Some(m) => m.package case None => None;
      if package.None? then Response(BAD_REQUEST, INVALID_MANIFEST)
      else if !HasMagicKeyword(package.value.keywords) then Response(BAD_REQUEST, NO_MAGIC_KEYWORD)
      else
        match OrdersText(package.value.metadata)
        case Some(text) => Response(OK, Trim(text))
        case None => Response(NO_CONTENT, "")
  }

  // ---------------------------------------------------------------------------
  // The decision order

  /** An unsupported or missing Content-Type is refused with 415 and an
      empty body, whatever the parsers would have said. */
  lemma UnsupportedMediaType(contentType: Option<string>, parse: Format -> Option<Manifest>)
    requires contentType !in {Some("application/toml"), Some("application/yaml"), Some("application/json")}
    ensures HandleManifest(contentType, parse) == Response(UNSUPPORTED_MEDIA_TYPE, "")
  {
  }

  /** A supported Content-Type whose parser fails, or finds no `package`,
      is refused with 400 "Invalid manifest". */
  lemma InvalidManifest(contentType: Option<string>, parse: Format -> Option<Manifest>)
    requires FormatOf(contentType).Some?
    requires var m := parse(FormatOf(contentType).value); m.None? || m.value.package.None?
    ensures HandleManifest(contentType, parse) == Response(BAD_REQUEST, INVALID_MANIFEST)
  {
  }

  /** A package without the magic keyword is refused before its orders are
      looked at: the answer is the same for any metadata. */
  lemma MagicKeywordFirst(contentType: Option<string>, keywords: Keywords, metadata: Option<seq<Order>>)
    requires FormatOf(contentType).Some?
    requires !HasMagicKeyword(keywords)
    ensures HandleManifest(contentType, _ => Some(Manifest(Some(Package(keywords, metadata)))))
         == Response(BAD_REQUEST, NO_MAGIC_KEYWORD)
  {
  }

  /** The keyword check accepts exactly a local list containing
      "Christmas 2024": absent and inherited keywords fail it. */
  lemma MagicKeywordCases(k: Keywords)
    ensures k.NoKeywords? ==> !HasMagicKeyword(k)
    ensures k.Inherited? ==> !HasMagicKeyword(k)
    ensures k.Local? ==> (HasMagicKeyword(k) <==> exists i :: 0 <= i < |k.words| && k.words[i] == MAGIC_KEYWORD)
  {
  }

  // ---------------------------------------------------------------------------
  // Orders

  /** The filter keeps the order of the orders: the lines of two lists
      back to back are the lines of each, back to back. */
  lemma {:induction false} OrderLinesAppend(a: seq<Order>, b: seq<Order>)
    ensures OrderLines(a + b) == OrderLines(a) + OrderLines(b)
  {
    if |a| == 0 {
      assert a + b == b;
    } else {
      var q := Quantity(a[0].quantity);
      var head := if q.Some? then [OrderLine(a[0].item, q.value)] else [];
      assert (a + b)[0] == a[0];
      assert (a + b)[1..] == a[1..] + b;
      assert OrderLines(a + b) == head + OrderLines(a[1..] + b);
      assert OrderLines(a) == head + OrderLines(a[1..]);
      OrderLinesAppend(a[1..], b);
      assert head + (OrderLines(a[1..]) + OrderLines(b)) == (head + OrderLines(a[1..])) + OrderLines(b);
    }
  }

  /** A single order gives its line when its quantity is usable and nothing
      when the quantity is absent or invalid. */
  lemma OrderLinesSingle(o: Order)
    ensures Quantity(o.quantity).Some? ==> OrderLines([o]) == [OrderLine(o.item, Quantity(o.quantity).value)]
    ensures Quantity(o.quantity).None? ==> OrderLines([o]) == []
  {
    assert [o][1..] == [];
  }

  lemma LinesNonEmpty(orders: seq<Order>)
    ensures forall i :: 0 <= i < |OrderLines(orders)| ==> |OrderLines(orders)[i]| > 0
  {
    forall i | 0 <= i < |OrderLines(orders)|
      ensures |OrderLines(orders)[i]| > 0
    {
      LineShape(orders, i);
    }
  }

  /** Every line is some order's item, ": ", and a decimal quantity. */
  lemma {:induction false} LineShape(orders: seq<Order>, i: nat)
    requires i < |OrderLines(orders)|
    ensures exists k, q :: (0 <= k < |orders| && Quantity(orders[k].quantity) == Some(q)
      && OrderLines(orders)[i] == OrderLine(orders[k].item, q))
  {
    var first := Quantity(orders[0].quantity);
    var head := if first.Some? then [OrderLine(orders[0].item, first.value)] else [];
    if first.Some? && i == 0 {
      assert OrderLines(orders)[0] == OrderLine(orders[0].item, first.value);
    } else {
      var j := i - |head|;
      assert OrderLines(orders)[i] == OrderLines(orders[1..])[j];
      LineShape(orders[1..], j);
      var k, q :| 0 <= k < |orders[1..]| && Quantity(orders[1..][k].quantity) == Some(q)
        && OrderLines(orders[1..])[j] == OrderLine(orders[1..][k].item, q);
      assert orders[1..][k] == orders[k + 1];
    }
  }

  /** With the right Content-Type, a package and the magic keyword, the
      answer is 200 exactly when some order has a usable quantity, and 204
      with an empty body otherwise (absent metadata included). */
  lemma OrdersOutcome(contentType: Option<string>, package: Package, parse: Format -> Option<Manifest>)
    requires FormatOf(contentType).Some?
    requires parse(FormatOf(contentType).value) == Some(Manifest(Some(package)))
    requires HasMagicKeyword(package.keywords)
    ensures var r := HandleManifest(contentType, parse);
      && (r.status == OK <==> package.metadata.Some? && |OrderLines(package.metadata.value)| > 0)
      && (r.status != OK ==> r == Response(NO_CONTENT, ""))
      && (r.status == OK ==> r.body == Trim(Join(OrderLines(package.metadata.value), '\n')))
  {
    if package.metadata.Some? {
      LinesNonEmpty(package.metadata.value);
      JoinEmpty(OrderLines(package.metadata.value), '\n');
    }
  }

  /** When no item contains a line break or starts with whitespace,
      trimming changes nothing and the 200 body, cut at its line breaks, is
      exactly the surviving orders' lines in order. The whitespace condition
      is asked of every item for simplicity: `str::trim` only reaches the
      start of the first line, since every line ends in a decimal digit. */
  lemma OrdersBodyLines(orders: seq<Order>)
    requires |OrderLines(orders)| > 0
    requires forall k :: 0 <= k < |orders| ==> '\n' !in orders[k].item
    requires forall k :: 0 <= k < |orders| && |orders[k].item| > 0 ==> !IsWhitespace(orders[k].item[0])
    ensures Split(Trim(Join(OrderLines(orders), '\n')), '\n') == OrderLines(orders)
  {
    var lines := OrderLines(orders);
    LinesNonEmpty(orders);
    forall i | 0 <= i < |lines|
      ensures '\n' !in lines[i] && !IsWhitespace(lines[i][0]) && !IsWhitespace(lines[i][|lines[i]| - 1])
    {
      LineShape(orders, i);
      var k, q :| 0 <= k < |orders| && Quantity(orders[k].quantity) == Some(q)
        && lines[i] == OrderLine(orders[k].item, q);
      LineEnds(orders[k].item, q);
    }
    var text := Join(lines, '\n');
    JoinEnds(lines, '\n');
    TrimUntouched(text);
    SplitJoin(lines, '\n');
  }

  /** A line holds no line break of its own, and begins and ends with
      something other than whitespace when its item does not begin with
      whitespace. */
  lemma LineEnds(item: string, q: nat)
    requires '\n' !in item
    requires |item| > 0 ==> !IsWhitespace(item[0])
    ensures var line := OrderLine(item, q);
      && '\n' !in line && !IsWhitespace(line[0]) && !IsWhitespace(line[|line| - 1])
  {
    var d := Decimal(q);
    var line := item + ": " + d;
    assert line[|line| - 1] == d[|d| - 1];
    assert line[0] == if |item| > 0 then item[0] else ':';
    assert AllDigits(d);
    assert '\n' !in ": " + d;
  }

  // ---------------------------------------------------------------------------
  // The handler's own test scenarios

  /** A parser that reads every body as the given manifest. */
  function Reads(m: Manifest): Format -> Option<Manifest>
  {
    _ => Some(m)
  }

  function MagicPackage(metadata: Option<seq<Order>>): Package
  {
    Package(Local([MAGIC_KEYWORD]), metadata)
  }

  /** Two orders with quantities 5 and 3 give two lines, in order. */
  lemma TwoOrders()
    ensures HandleManifest(Some("application/toml"),
      Reads(Manifest(Some(MagicPackage(Some([Order("Toy Car", Integer(5)), Order("Doll", Integer(3))]))))))
      == Response(OK, "Toy Car: 5\nDoll: 3")
  {
    TwoOrdersText();
    TwoOrdersTrimmed();
    MagicAnswer([Order("Toy Car", Integer(5)), Order("Doll", Integer(3))], "Toy Car: 5\nDoll: 3");
  }

  lemma TwoOrdersTrimmed()
    ensures Trim("Toy Car: 5\nDoll: 3") == "Toy Car: 5\nDoll: 3"
  {
    TrimUntouched("Toy Car: 5\nDoll: 3");
  }

  /** A TOML manifest with the magic keyword whose orders join to a text
      that trimming leaves alone is answered 200 with that text. */
  lemma MagicAnswer(orders: seq<Order>, text: string)
    requires Join(OrderLines(orders), '\n') == text && |OrderLines(orders)| > 0 && Trim(text) == text
    ensures HandleManifest(Some("application/toml"), Reads(Manifest(Some(MagicPackage(Some(orders))))))
      == Response(OK, text)
  {
    var package := MagicPackage(Some(orders));
    TomlFormat();
    MagicPackageHasKeyword(package.metadata);
    var parse := Reads(Manifest(Some(package)));
    assert parse(Toml) == Some(Manifest(Some(package)));
    OrdersOutcome(Some("application/toml"), package, parse);
    var r := HandleManifest(Some("application/toml"), parse);
    assert r.status == OK && r.body == text;
  }

  lemma TwoOrdersText()
    ensures var lines := OrderLines([Order("Toy Car", Integer(5)), Order("Doll", Integer(3))]);
      |lines| > 0 && Join(lines, '\n') == "Toy Car: 5\nDoll: 3"
  {
    TwoOrderLines();
    JoinTwo("Toy Car: 5", "Doll: 3", '\n');
    assert "Toy Car: 5" + ['\n'] + "Doll: 3" == "Toy Car: 5\nDoll: 3";
  }

  lemma TomlFormat()
    ensures FormatOf(Some("application/toml")) == Some(Toml)
  {
  }

  lemma MagicPackageHasKeyword(metadata: Option<seq<Order>>)
    ensures HasMagicKeyword(MagicPackage(metadata).keywords)
  {
    assert MagicPackage(metadata).keywords.words[0] == MAGIC_KEYWORD;
  }

  lemma TwoOrderLines()
    ensures OrderLines([Order("Toy Car", Integer(5)), Order("Doll", Integer(3))]) == ["Toy Car: 5", "Doll: 3"]
  {
    var car, doll := Order("Toy Car", Integer(5)), Order("Doll", Integer(3));
    OrderLinesAppend([car], [doll]);
    assert [car] + [doll] == [car, doll];
    OrderLineExample("Toy Car", 5, "Toy Car: 5");
    OrderLineExample("Doll", 3, "Doll: 3");
    OrderLinesSingle(car);
    OrderLinesSingle(doll);
  }

  /** A one-digit quantity's line. */
  lemma OrderLineExample(item: string, q: nat, line: string)
    requires q < 10
    requires line == item + ": " + [DigitChar(q)]
    ensures OrderLine(item, q) == line
  {
  }

  /** An empty order list leaves nothing to report: 204. */
  lemma NoOrders()
    ensures HandleManifest(Some("application/toml"), Reads(Manifest(Some(MagicPackage(Some([]))))))
      == Response(NO_CONTENT, "")
  {
    TomlFormat();
    MagicPackageHasKeyword(Some([]));
  }

  /** Orders without a quantity leave nothing to report: 204. */
  lemma OrdersWithoutQuantity()
    ensures HandleManifest(Some("application/toml"),
      Reads(Manifest(Some(MagicPackage(Some([Order("Toy Car", Missing), Order("Doll", Missing)]))))))
      == Response(NO_CONTENT, "")
  {
    var car, doll := Order("Toy Car", Missing), Order("Doll", Missing);
    OrderLinesAppend([car], [doll]);
    OrderLinesSingle(car);
    OrderLinesSingle(doll);
    assert [car] + [doll] == [car, doll];
  }

  /** Keywords without the magic one are refused, whatever the orders. */
  lemma WrongKeyword(metadata: Option<seq<Order>>)
    ensures HandleManifest(Some("application/toml"), Reads(Manifest(Some(Package(Local(["Holiday"]), metadata)))))
      == Response(BAD_REQUEST, NO_MAGIC_KEYWORD)
  {
    assert MAGIC_KEYWORD != "Holiday" by {
      assert MAGIC_KEYWORD[0] != "Holiday"[0];
    }
  }
}

=== FILE: snippets.dfy ===
/** Day 23, htmx snippets: `present` cycles a gift's colour through blue,
    purple and red; `ornament` switches a decoration on and off. Both
    escape their path segments before matching or echoing them, and both
    answer 418 with an empty body to any other state. */
module Snippets {
  import opened Wrappers
  import opened Text
  import opened Html

  // ---------------------------------------------------------------------------
  // present

  datatype Colour = Blue | Purple | Red

  function ColourName(c: Colour): string
  {
    match c
    case Blue => "blue"
    case Purple => "purple"
    case Red => "red"
  }

  /** The colour the snippet's `hx-get` link asks for next. */
  function NextColour(c: Colour): Colour
  {
    match c
    case Blue => Purple
    case Purple => Red
    case Red => Blue
  }

  /** The colour a path segment names, if any. */
  function ColourNamed(s: string): (r: Option<Colour>)
    ensures r.Some? ==> ColourName(r.value) == s
    ensures r.None? ==> forall c: Colour :: ColourName(c) != s
  {
    if s == "blue" then Some(Blue)
    else if s == "purple" then Some(Purple)
    else if s == "red" then Some(Red)
    else None
  }

  /** The gift snippet with its class and the link to the next colour:
      the text of `present`'s `format!` string, held as the pieces between
      its double quotes. */
  function PresentDiv(cssClass: string, next: string): string
  {
    Join(PresentPieces(cssClass, next), '"')
  }

  function PresentPieces(cssClass: string, next: string): seq<string>
  {
    ["<div class=", "present " + cssClass, " hx-get=", "/23/present/" + next, " hx-swap=", "outerHTML",
     "> <div class=", "ribbon", "></div><div class=", "ribbon", "></div><div class=", "ribbon",
     "></div><div class=", "ribbon", "></div></div>"]
  }

  /** An escaped segment equals an escape-free word exactly when the segment
      is that word. */
  lemma EscapedEquals(s: string, w: string)
    requires Plain(w)
    ensures EscapeString(s) == w <==> s == w
  {
    if EscapeString(s) == w {
      EscapeInjective(s, w);
    }
  }

  /** `present`: a known colour answers 200 with the snippet for that colour
      linking to the next one; anything else answers 418 with no body. */
  function Present(color: string): (r: Response)
    ensures ColourNamed(color).None? ==> r == Response(IM_A_TEAPOT, "")
    ensures ColourNamed(color).Some? ==>
      r == Response(OK, PresentDiv(color, ColourName(NextColour(ColourNamed(color).value))))
  {
    var c := EscapeString(color);
    EscapedEquals(color, "blue");
    EscapedEquals(color, "purple");
    EscapedEquals(color, "red");
    if c == "blue" then Response(OK, PresentDiv("blue", "purple"))
    else if c == "purple" then Response(OK, PresentDiv("purple", "red"))
    else if c == "red" then Response(OK, PresentDiv("red", "blue"))
    else Response(IM_A_TEAPOT, "")
  }

  /** Following the link three times comes back to the first colour, and
      no link points at the colour it came from. */
  lemma PresentCycle(c: Colour)
    ensures NextColour(NextColour(NextColour(c))) == c
    ensures NextColour(c) != c
  {
  }

  /** The snippet for a colour, cut at its double quotes, has fifteen
      pieces; its class names the colour and its `hx-get` path is
      "/23/present/" followed by the next colour. */
  lemma PresentLink(c: Colour)
    ensures Present(ColourName(c)).status == OK
    ensures var pieces := Split(Present(ColourName(c)).body, '"');
      && |pieces| == 15
      && pieces[1] == "present " + ColourName(c)
      && pieces[3] == "/23/present/" + ColourName(NextColour(c))
  {
    var name, next := ColourName(c), ColourName(NextColour(c));
    NamedColour(c);
    NamedColour(NextColour(c));
    PresentDivSplit(name, next);
  }

  lemma NamedColour(c: Colour)
    ensures ColourNamed(ColourName(c)) == Some(c)
    ensures '"' !in ColourName(c)
  {
  }

  lemma PresentDivSplit(cssClass: string, next: string)
    requires '"' !in cssClass && '"' !in next
    ensures var pieces := Split(PresentDiv(cssClass, next), '"');
      && |pieces| == 15
      && pieces[1] == "present " + cssClass
      && pieces[3] == "/23/present/" + next
  {
    assert NoneContains(PresentPieces(cssClass, next), '"');
    SplitJoin(PresentPieces(cssClass, next), '"');
  }

  // ---------------------------------------------------------------------------
  // ornament

  datatype Lamp = On | Off

  function LampName(l: Lamp): string
  {
    match l
    case On => "on"
    case Off => "off"
  }

  /** The extra CSS class: " on" when lit, nothing when dark. */
  function LampClass(l: Lamp): string
  {
    match l
    case On => " on"
    case Off => ""
  }

  function Toggle(l: Lamp): Lamp
  {
    match l
    case On => Off
    case Off => On
  }

  function LampNamed(s: string): (r: Option<Lamp>)
    ensures r.Some? ==> LampName(r.value) == s
    ensures r.None? ==> forall l: Lamp :: LampName(l) != s
  {
    if s == "on" then Some(On)
    else if s == "off" then Some(Off)
    else None
  }

  /** The ornament snippet: class, id carrying the number, and the link
      that loads the other state for the same number; the text of
      `ornament`'s `format!` string, held as the pieces between its double
      quotes. */
  function OrnamentDiv(cssClass: string, number: string, next: string): string
  {
    Join(OrnamentPieces(cssClass, number, next), '"')
  }

  function OrnamentPieces(cssClass: string, number: string, next: string): seq<string>
  {
    ["<div class=", "ornament" + cssClass, " id=", "ornament" + number,
     " hx-trigger=", "load delay:2s once", " hx-get=", "/23/ornament/" + next + "/" + number,
     " hx-swap=", "outerHTML", "></div>"]
  }

  /** `ornament`: a known state answers 200 with the snippet whose number is
      the escaped segment and whose link asks for the other state; anything
      else answers 418 with no body. */
  function Ornament(state: string, number: string): (r: Response)
    ensures LampNamed(state).None? ==> r == Response(IM_A_TEAPOT, "")
    ensures LampNamed(state).Some? ==>
      var l := LampNamed(state).value;
      r == Response(OK, OrnamentDiv(LampClass(l), Escape(number), LampName(Toggle(l))))
  {
    var s, n := EscapeString(state), EscapeString(number);
    EscapedEquals(state, "on");
    EscapedEquals(state, "off");
    if s == "on" then Response(OK, OrnamentDiv(" on", n, "off"))
    else if s == "off" then Response(OK, OrnamentDiv("", n, "on"))
    else Response(IM_A_TEAPOT, "")
  }

  /** Switching twice returns to the first state. */
  lemma ToggleTwice(l: Lamp)
    ensures Toggle(Toggle(l)) == l
    ensures Toggle(l) != l
  {
  }

  /** The number segment cannot break out of its attributes: cut at its
      double quotes, the snippet has exactly eleven pieces, the id value is
      "ornament" followed by the escaped number, and the `hx-get` path has
      exactly the five segments "", "23", "ornament", the next state and
      the escaped number. */
  lemma OrnamentAttributes(state: string, number: string)
    requires LampNamed(state).Some?
    ensures var body := Ornament(state, number).body;
      var pieces := Split(body, '"');
      var next := LampName(Toggle(LampNamed(state).value));
      && |pieces| == 11
      && pieces[3] == "ornament" + Escape(number)
      && pieces[7] == "/23/ornament/" + next + "/" + Escape(number)
      && Split(pieces[7], '/') == ["", "23", "ornament", next, Escape(number)]
  {
    var l := LampNamed(state).value;
    var n := Escape(number);
    assert '"' !in n && '/' !in n by {
      assert Safe(n);
    }
    OrnamentDivSplit(LampClass(l), n, LampName(Toggle(l)));
  }

  lemma OrnamentDivSplit(cssClass: string, n: string, next: string)
    requires '"' !in cssClass && '"' !in n && '/' !in n && '"' !in next && '/' !in next
    ensures var pieces := Split(OrnamentDiv(cssClass, n, next), '"');
      && |pieces| == 11
      && pieces[3] == "ornament" + n
      && pieces[7] == "/23/ornament/" + next + "/" + n
      && Split(pieces[7], '/') == ["", "23", "ornament", next, n]
  {
    var pieces := OrnamentPieces(cssClass, n, next);
    OrnamentDivSplitQuotes(cssClass, n, next);
    var path := ["", "23", "ornament", next, n];
    assert NoneContains(path, '/');
    JoinFive(path, '/');
    assert Join(path, '/') == pieces[7];
    SplitJoin(path, '/');
  }

  lemma OrnamentDivSplitQuotes(cssClass: string, n: string, next: string)
    requires '"' !in cssClass && '"' !in n && '"' !in next
    ensures Split(OrnamentDiv(cssClass, n, next), '"') == OrnamentPieces(cssClass, n, next)
  {
    assert NoneContains(OrnamentPieces(cssClass, n, next), '"');
    SplitJoin(OrnamentPieces(cssClass, n, next), '"');
  }
}

=== FILE: text.dfy ===
/** Text helpers shared by the handlers: Rust's decimal and hexadecimal
    integer syntax, `join`/`split` on a one-character separator, and
    `str::trim`. Strings are sequences of Unicode scalar values. */
module Text {

  // ---------------------------------------------------------------------------
  // Digits

  predicate IsDigit(c: char) {
    '0' <= c <= '9'
  }

  predicate IsHexDigit(c: char) {
    '0' <= c <= '9' || 'a' <= c <= 'f' || 'A' <= c <= 'F'
  }

  predicate AllDigits(s: string) {
    forall i :: 0 <= i < |s| ==> IsDigit(s[i])
  }

  predicate AllHexDigits(s: string) {
    forall i :: 0 <= i < |s| ==> IsHexDigit(s[i])
  }

  function DigitValue(c: char): (v: nat)
    requires IsDigit(c)
    ensures v < 10
  {
    c as int - '0' as int
  }

  function HexDigitValue(c: char): (v: nat)
    requires IsHexDigit(c)
    ensures v < 16
  {
    if '0' <= c <= '9' then c as int - '0' as int
    else if 'a' <= c <= 'f' then c as int - 'a' as int + 10
    else c as int - 'A' as int + 10
  }

  function DigitChar(d: nat): (c: char)
    requires d < 10
    ensures IsDigit(c) && DigitValue(c) == d
  {
    ('0' as int + d) as char
  }

  /** Value of a string of decimal digits, most significant first. */
  function DecimalValue(s: string): nat
    requires AllDigits(s)
  {
    if |s| == 0 then 0
    else 10 * DecimalValue(s[..|s| - 1]) + DigitValue(s[|s| - 1])
  }

  /** Value of a string of hexadecimal digits, most significant first. */
  function HexValue(s: string): nat
    requires AllHexDigits(s)
  {
    if |s| == 0 then 0
    else 16 * HexValue(s[..|s| - 1]) + HexDigitValue(s[|s| - 1])
  }

  /** A hexadecimal digit string of length k denotes a value below 16^k. */
  lemma {:induction false} HexValueBound(s: string)
    requires AllHexDigits(s)
    ensures HexValue(s) < Pow16(|s|)
  {
    if |s| > 0 {
      var prefix := s[..|s| - 1];
      HexValueBound(prefix);
      assert HexValue(prefix) + 1 <= Pow16(|prefix|);
      assert 16 * (HexValue(prefix) + 1) <= 16 * Pow16(|prefix|);
    }
  }

  function Pow16(k: nat): (p: nat)
    ensures p >= 1
  {
    if k == 0 then 1 else 16 * Pow16(k - 1)
  }

  /** The decimal rendering of a natural number, as Rust's `Display`
      writes an unsigned integer: digits only, no sign, no leading zero. */
  function Decimal(n: nat): (s: string)
    ensures 1 <= |s|
    ensures AllDigits(s)
    ensures DecimalValue(s) == n
    ensures s[0] == '0' ==> n == 0
    ensures n < 10 ==> |s| == 1
    ensures n < 100 ==> |s| <= 2
    ensures n < 1000 ==> |s| <= 3
    decreases n
  {
    if n < 10 then [DigitChar(n)]
    else
      var prefix := Decimal(n / 10);
      var s := prefix + [DigitChar(n % 10)];
      assert s[..|s| - 1] == prefix;
      s
  }

  // ---------------------------------------------------------------------------
  // Joining and splitting on a one-character separator

  /** `parts.join(sep)`: the parts with one separator between neighbours. */
  function Join(parts: seq<string>, sep: char): string
  {
    if |parts| == 0 then ""
    else if |parts| == 1 then parts[0]
    else parts[0] + [sep] + Join(parts[1..], sep)
  }

  /** `parts.concat()`: the parts back to back. */
  function Concat(parts: seq<string>): string
  {
    if |parts| == 0 then "" else parts[0] + Concat(parts[1..])
  }

  predicate NoneContains(parts: seq<string>, c: char) {
    forall i :: 0 <= i < |parts| ==> c !in parts[i]
  }

  /** `s.split(sep)`: the maximal separator-free pieces of `s`; always at
      least one piece, and joining them back gives `s`. */
  function Split(s: string, sep: char): (parts: seq<string>)
    ensures |parts| >= 1
    ensures NoneContains(parts, sep)
    ensures Join(parts, sep) == s
  {
    if |s| == 0 then [""]
    else
      var rest := Split(s[1..], sep);
      if s[0] == sep then
        assert Join([""] + rest, sep) == [sep] + Join(rest, sep);
        assert [sep] + s[1..] == s;
        [""] + rest
      else
        var parts := [[s[0]] + rest[0]] + rest[1..];
        assert parts[1..] == rest[1..];
        assert [s[0]] + s[1..] == s;
        parts
  }

  lemma {:induction false} SplitWithoutSeparator(p: string, sep: char)
    requires sep !in p
    ensures Split(p, sep) == [p]
  {
    if |p| > 0 {
      SplitWithoutSeparator(p[1..], sep);
      assert [p[0]] + p[1..] == p;
    }
  }

  lemma {:induction false} SplitAfterPiece(p: string, t: string, sep: char)
    requires sep !in p
    ensures Split(p + [sep] + t, sep) == [p] + Split(t, sep)
  {
    if |p| == 0 {
      assert p + [sep] + t == [sep] + t;
      assert ([sep] + t)[1..] == t;
    } else {
      var s := p + [sep] + t;
      assert s[0] == p[0];
      assert s[1..] == p[1..] + [sep] + t;
      SplitAfterPiece(p[1..], t, sep);
      assert [p[0]] + p[1..] == p;
    }
  }

  /** Splitting undoes joining when no piece contains the separator. */
  lemma {:induction false} SplitJoin(parts: seq<string>, sep: char)
    requires |parts| >= 1
    requires NoneContains(parts, sep)
    ensures Split(Join(parts, sep), sep) == parts
  {
    if |parts| == 1 {
      SplitWithoutSeparator(parts[0], sep);
    } else {
      SplitJoin(parts[1..], sep);
      SplitAfterPiece(parts[0], Join(parts[1..], sep), sep);
      assert [parts[0]] + parts[1..] == parts;
    }
  }

  /** A join of at least two pieces is the first piece, a separator, and
      the join of the rest. */
  lemma JoinCons(p: seq<string>, sep: char)
    requires |p| >= 2
    ensures Join(p, sep) == p[0] + [sep] + Join(p[1..], sep)
  {
  }

  lemma JoinTwo(a: string, b: string, sep: char)
    ensures Join([a, b], sep) == a + [sep] + b
  {
    assert [a, b][1..] == [b];
  }

  /** Five pieces joined, written out. */
  lemma JoinFive(p: seq<string>, sep: char)
    requires |p| == 5
    ensures Join(p, sep) == p[0] + [sep] + p[1] + [sep] + p[2] + [sep] + p[3] + [sep] + p[4]
  {
    var j4 := Join(p[4..], sep);
    assert j4 == p[4];
    var j3 := Join(p[3..], sep);
    JoinCons(p[3..], sep);
    assert p[3..][1..] == p[4..];
    assert j3 == p[3] + [sep] + p[4];
    var j2 := Join(p[2..], sep);
    JoinCons(p[2..], sep);
    assert p[2..][1..] == p[3..];
    assert j2 == p[2] + [sep] + j3;
    var j1 := Join(p[1..], sep);
    JoinCons(p[1..], sep);
    assert p[1..][1..] == p[2..];
    assert j1 == p[1] + [sep] + j2;
    JoinCons(p, sep);
  }

  /** Joining non-empty pieces gives the empty text exactly when there are
      no pieces. */
  lemma {:induction false} JoinEmpty(parts: seq<string>, sep: char)
    requires forall i :: 0 <= i < |parts| ==> |parts[i]| > 0
    ensures Join(parts, sep) == "" <==> |parts| == 0
  {
    if |parts| > 1 {
      JoinEmpty(parts[1..], sep);
    }
  }

  /** A join of non-empty pieces starts with the first piece's first
      character and ends with the last piece's last character. */
  lemma {:induction false} JoinEnds(parts: seq<string>, sep: char)
    requires |parts| > 0
    requires forall i :: 0 <= i < |parts| ==> |parts[i]| > 0
    ensures var s := Join(parts, sep);
      |s| > 0 && s[0] == parts[0][0] && s[|s| - 1] == parts[|parts| - 1][|parts[|parts| - 1]| - 1]
  {
    if |parts| > 1 {
      JoinEnds(parts[1..], sep);
    }
  }

  /** Joining n pieces of width w gives n * w characters plus n - 1
      separators. */
  lemma {:induction false} JoinLength(parts: seq<string>, sep: char, w: nat)
    requires |parts| >= 1
    requires forall i :: 0 <= i < |parts| ==> |parts[i]| == w
    ensures |Join(parts, sep)| == |parts| * w + |parts| - 1
  {
    if |parts| > 1 {
      JoinLength(parts[1..], sep, w);
    }
  }

  /** Number of occurrences of `c` in `s`. */
  function Count(s: string, c: char): nat
  {
    if |s| == 0 then 0
    else (if s[0] == c then 1 else 0) + Count(s[1..], c)
  }

  lemma {:induction false} CountAppend(a: string, b: string, c: char)
    ensures Count(a + b, c) == Count(a, c) + Count(b, c)
  {
    if |a| > 0 {
      assert (a + b)[1..] == a[1..] + b;
      CountAppend(a[1..], b, c);
    } else {
      assert a + b == b;
    }
  }

  lemma {:induction false} CountAbsent(s: string, c: char)
    requires c !in s
    ensures Count(s, c) == 0
  {
    if |s| > 0 {
      CountAbsent(s[1..], c);
    }
  }

  /** Joining n separator-free pieces puts exactly n - 1 separators in. */
  lemma {:induction false} CountJoin(parts: seq<string>, sep: char)
    requires |parts| >= 1
    requires NoneContains(parts, sep)
    ensures Count(Join(parts, sep), sep) == |parts| - 1
  {
    CountAbsent(parts[0], sep);
    if |parts| > 1 {
      CountJoin(parts[1..], sep);
      CountAppend(parts[0], [sep], sep);
      CountAppend(parts[0] + [sep], Join(parts[1..], sep), sep);
    }
  }

  // ---------------------------------------------------------------------------
  // Trimming

  /** Rust's `char::is_whitespace`: the Unicode White_Space property. */
  predicate IsWhitespace(c: char) {
    || '\t' <= c <= '\r'
    || c == ' '
    || c == '\U{0085}'
    || c == '\U{00A0}'
    || c == '\U{1680}'
    || '\U{2000}' <= c <= '\U{200A}'
    || c == '\U{2028}'
    || c == '\U{2029}'
    || c == '\U{202F}'
    || c == '\U{205F}'
    || c == '\U{3000}'
  }

  predicate AllWhitespace(s: string) {
    forall i :: 0 <= i < |s| ==> IsWhitespace(s[i])
  }

  /** `str::trim_start`: drop the leading whitespace. */
  function TrimStart(s: string): (r: string)
    ensures |r| <= |s| && r == s[|s| - |r|..]
    ensures AllWhitespace(s[..|s| - |r|])
    ensures r == [] || !IsWhitespace(r[0])
  {
    if |s| > 0 && IsWhitespace(s[0]) then
      var r := TrimStart(s[1..]);
      WhitespacePrefixCons(s, r);
      r
    else s
  }

  /** `str::trim_end`: drop the trailing whitespace. */
  function TrimEnd(s: string): (r: string)
    ensures |r| <= |s| && r == s[..|r|]
    ensures AllWhitespace(s[|r|..])
    ensures r == [] || !IsWhitespace(r[|r| - 1])
  {
    if |s| > 0 && IsWhitespace(s[|s| - 1]) then
      var r := TrimEnd(s[..|s| - 1]);
      WhitespaceSuffixSnoc(s, r);
      r
    else s
  }

  /** A whitespace character in front of a whitespace run keeps it one. */
  lemma WhitespacePrefixCons(s: string, r: string)
    requires |s| > 0 && IsWhitespace(s[0])
    requires |r| <= |s| - 1 && r == s[1..][|s| - 1 - |r|..] && AllWhitespace(s[1..][..|s| - 1 - |r|])
    ensures r == s[|s| - |r|..] && AllWhitespace(s[..|s| - |r|])
  {
    assert s[..|s| - |r|] == [s[0]] + s[1..][..|s| - 1 - |r|];
  }

  /** A whitespace character after a whitespace run keeps it one. */
  lemma WhitespaceSuffixSnoc(s: string, r: string)
    requires |s| > 0 && IsWhitespace(s[|s| - 1])
    requires |r| <= |s| - 1 && r == s[..|s| - 1][..|r|] && AllWhitespace(s[..|s| - 1][|r|..])
    ensures r == s[..|r|] && AllWhitespace(s[|r|..])
  {
    assert s[|r|..] == s[..|s| - 1][|r|..] + [s[|s| - 1]];
  }

  /** `str::trim`: the whitespace at both ends dropped. The result neither
      starts nor ends with whitespace. */
  function Trim(s: string): (r: string)
    ensures |r| <= |s|
    ensures r == [] || (!IsWhitespace(r[0]) && !IsWhitespace(r[|r| - 1]))
  {
    var t := TrimStart(s);
    var r := TrimEnd(t);
    assert r == [] || r[0] == t[0];
    r
  }

  /** What `Trim` dropped is whitespace: its result is the infix of `s`
      between a run of whitespace at the front and one at the back. */
  lemma TrimInfix(s: string)
    ensures exists i, j :: 0 <= i <= j <= |s| && Trim(s) == s[i..j] && AllWhitespace(s[..i]) && AllWhitespace(s[j..])
  {
    var t, r := TrimStart(s), Trim(s);
    TrimParts(s);
    var i, j := |s| - |t|, |s| - |t| + |r|;
    SuffixPrefix(s, t, r);
    TrimDropped(s, i, j);
    assert 0 <= i <= j <= |s| && Trim(s) == s[i..j] && AllWhitespace(s[..i]) && AllWhitespace(s[j..]);
  }

  /** `Trim` is `TrimEnd` after `TrimStart`: a suffix of `s`, then a prefix
      of that suffix. */
  lemma TrimParts(s: string)
    ensures var t := TrimStart(s);
      && t == s[|s| - |t|..]
      && Trim(s) == TrimEnd(t)
      && |Trim(s)| <= |t| && Trim(s) == t[..|Trim(s)|]
  {
    var t := TrimStart(s);
    assert Trim(s) == TrimEnd(t);
  }

  lemma TrimDropped(s: string, i: nat, j: nat)
    requires i == |s| - |TrimStart(s)| && j == i + |Trim(s)|
    ensures j <= |s| && AllWhitespace(s[..i]) && AllWhitespace(s[j..])
  {
    var t := TrimStart(s);
    var e := TrimEnd(t);
    assert Trim(s) == e;
    assert t == s[i..] && AllWhitespace(s[..i]);
    assert |e| <= |t| && AllWhitespace(t[|e|..]);
    WhitespaceSuffix(s, t, i, |e|);
  }

  /** A prefix of a suffix is an infix. */
  lemma SuffixPrefix(s: string, t: string, r: string)
    requires |t| <= |s| && t == s[|s| - |t|..] && |r| <= |t| && r == t[..|r|]
    ensures r == s[|s| - |t|..|s| - |t| + |r|]
  {
  }

  lemma WhitespaceSuffix(s: string, t: string, i: nat, k: nat)
    requires i <= |s| && t == s[i..] && k <= |t| && AllWhitespace(t[k..])
    ensures AllWhitespace(s[i + k..])
  {
    assert s[i + k..] == t[k..];
  }

  /** A string that neither starts nor ends with whitespace is its own trim. */
  lemma TrimUntouched(s: string)
    requires s == [] || (!IsWhitespace(s[0]) && !IsWhitespace(s[|s| - 1]))
    ensures Trim(s) == s
  {
  }
}

=== FILE: wrappers.dfy ===
/** The optional-value and HTTP-reply types the handlers share. */
module Wrappers {

  datatype Option<+T> = None | Some(value: T)

  /** Status codes the handlers answer with. */
  const OK: nat := 200
  const NO_CONTENT: nat := 204
  const BAD_REQUEST: nat := 400
  const UNSUPPORTED_MEDIA_TYPE: nat := 415
  const IM_A_TEAPOT: nat := 418
  const UNPROCESSABLE_ENTITY: nat := 422

  /** A status code with a text body, as an axum `(StatusCode, String)`. */
  datatype Response = Response(status: nat, body: string)
}
